=== FILE: README.md ===
# couch-chakra: BERT decoding and option parsing in Dafny

This project models two parts of couch-chakra, the CouchDB query server built
on the ChakraCore script engine:

- **The BERT decoder** of `src/bert.cpp`. `Bert.decode` receives the bytes of
  an ArrayBuffer holding an Erlang External Term Format stream: the version
  byte 131, then one term. It returns the script value the term stands for.
  Decoding has three layers:
  - the primitive readers (`Wire`): a byte, big-endian 16- and 32-bit
    integers, the byte-reversed double, a borrowed span, and the SMALL_BIG
    magnitude summed with the `powers` table;
  - the recursive term decoder (`Terms`), which builds a tree of `val` nodes;
  - the converter (`Converter`), which turns the tree into host values. The
    BERT convention `{bert, dict, List}` becomes an object, and property ids
    are cached by the hash of the property name.
- **The command-line parser** `couch_parse_args` of `src/couch_args.c`
  (`CouchArgs`). It is one left-to-right pass over `argv` that yields the
  options and the scripts, or ends the process with exit code 0, 2 or 3.

The project has these modules:

| module | file | contents |
|---|---|---|
| `Results` | `results.dfy` | the error kinds and `Result`/`Option` |
| `Wire` | `wire.dfy` | the primitive readers and the writers they invert |
| `Terms` | `terms.dfy` | the `Term` tree and `decode_intern_`/`decode_list` |
| `Host` | `host.dfy` | host values and `JsSetProperty` on an object |
| `Converter` | `converter.dfy` | `convert`, `convert_list`, the property-id cache, and a reference conversion |
| `Encoder` | `encoder.dfy` | an encoder for every decodable term, with the round trip through the decoder |
| `Bert` | `bert.dfy` | `decode` and `Bert_decode`, and their end-to-end properties |
| `CouchArgs` | `args.dfy` | `couch_parse_args`, the loop as a method and as a function, and an unparser |

The program only decodes, so every decoding layer is paired with a partner:
- each reader with the writer it inverts;
- the term decoder with `Encoder.Encode`;
- `Convert`, whose output depends on the cache, with the cache-free
  reference `Value`;
- the option loop with `Unparse`.

## Model

| member | source | states |
|---|---|---|
| Wire.ReadU8OfWrite | src/bert.cpp:281-283 | `decode_small_int` reads back a byte written anywhere in a buffer as itself and advances the cursor by 1 |
| Wire.ReadU16 | src/bert.cpp:285-289 | `decode_uint16` succeeds exactly when two bytes remain, reads 256·b0 + b1 (network order) and advances the cursor by 2 |
| Wire.ReadU32 | src/bert.cpp:291-295 | `decode_uint32` succeeds exactly when four bytes remain, reads the big-endian weighting of the four bytes and advances by 4 |
| Wire.ReadI32 | src/bert.cpp:297-301 | `decode_int` reads a signed 32-bit value congruent to the unsigned reading modulo 2^32, negative exactly when the first byte has its top bit set, and advances by 4 |
| Wire.ToInt32 | src/bert.cpp:297-301 | the `ntohl` result stored in an `int` lies in [-2^31, 2^31), is congruent to the pattern modulo 2^32 and is negative exactly when the pattern is at least 2^31 |
| Wire.ToInt64 | src/bert.cpp:359-366 | the unsigned sum stored in a `long long` lies in [-2^63, 2^63), is congruent modulo 2^64 and is negative exactly when the sum is at least 2^63 |
| Wire.SizeT | src/bert.cpp:263-263 | a signed count handed to `decode_list`'s `size_t` parameter keeps a non-negative value and turns a negative one into a count of at least 2^64 - 2^31 |
| Wire.ReadFloatBits | src/bert.cpp:303-319 | `decode_new_float` succeeds exactly when 8 bytes remain and yields as the double's 64-bit pattern the big-endian value of the 8 wire bytes, advancing by 8 |
| Wire.LittleEndianOfReverse | src/bert.cpp:304-316 | reading the reversed copy of the bytes little-endian, as the host's memory does, gives the big-endian value of the original bytes |
| Wire.ReadSpanOfWrite | src/bert.cpp:321-328 | a span written between any two byte strings is read back by `decode_string` as exactly that span, with the cursor just past it, whatever surrounds it |
| Wire.ReadSmallBig | src/bert.cpp:355-367 | `decode_small_big` succeeds exactly when the length byte is at most 8 and the magnitude fits in the buffer; it advances by 2 + length and returns the `long long` wrap of the little-endian magnitude; a length over 8 is `BigTooWide` |
| Wire.PowersTable | src/bert.cpp:343-353 | entry i of `powers` is 256^i for i < 8, and 256^8 = 2^64 is one past the last entry |
| Wire.PowerSumIsLittleEndian | src/bert.cpp:362-364 | the loop Σ mag[i]·powers[i] equals the little-endian value of the magnitude |
| Wire.SmallBigIgnoresSign | src/bert.cpp:356-357 | changing the sign byte of a SMALL_BIG_EXT changes neither its value nor the cursor |
| Wire.SmallBigValue | src/bert.cpp:359-366 | the value equals the plain magnitude exactly when fewer than 8 bytes are used or the top byte is below 128; otherwise the `long long` wraps |
| Wire.ReadU16OfWrite | src/bert.cpp:285-289 | reading back the 2-byte big-endian writing of n < 2^16 gives n and advances by 2 |
| Wire.ReadU32OfWrite | src/bert.cpp:291-295 | reading back the 4-byte big-endian writing of n < 2^32 gives n and advances by 4 |
| Wire.ReadI32OfWrite | src/bert.cpp:297-301 | reading back the two's-complement writing of any 32-bit signed value gives that value |
| Wire.ReadFloatBitsOfWrite | src/bert.cpp:303-319 | reading back the big-endian writing of a 64-bit pattern gives that pattern and advances by 8 |
| Wire.ReadSmallBigOfWrite | src/bert.cpp:355-367 | an 8-byte SMALL_BIG_EXT body holding the 64-bit pattern of n reads back as n, whatever the sign byte |
| Wire.PiBits | src/bert.cpp:303-319 | the wire bytes 40 09 21 FB 54 44 2D 18 give the pattern 0x400921FB54442D18 of the double pi |
| Wire.SmallBig257 | src/bert.cpp:355-367 | a SMALL_BIG_EXT of length 2, sign 0 and magnitude [1, 1] is 257 and takes 4 bytes |
| Terms.DecodeTerm | src/bert.cpp:236-278 | every decoded term consumes at least its tag byte and stays within the buffer |
| Terms.DecodeStringLike | src/bert.cpp:241-249 | ATOM_EXT, STRING_EXT and BINARY_EXT bodies decode to string-like nodes and move the cursor forward |
| Terms.DecodeNumber | src/bert.cpp:250-261 | each numeric tag gives its own kind of number in the range of its C type: SMALL_INTEGER_EXT takes 1 byte, INTEGER_EXT 4 bytes as a signed 32-bit value, NEW_FLOAT_EXT 8 bytes as a 64-bit pattern, SMALL_BIG_EXT 2 to 10 bytes as a signed 64-bit value; the fixed-width ones succeed exactly when their bytes are present |
| Terms.DecodeSequence | src/bert.cpp:262-273 | list and tuple bodies decode to list or tuple nodes and move the cursor forward |
| Terms.DecodeTerms | src/bert.cpp:330-340 | `decode_list` yields exactly n children and advances at least n bytes |
| Terms.AtomOrStringIsWindow | src/bert.cpp:241-249 | ATOM_EXT and STRING_EXT succeed exactly when the 2-byte length fits, and their payload is exactly the window after the length |
| Terms.BinaryIsWindow | src/bert.cpp:244-246 | BINARY_EXT succeeds exactly when the 4-byte length fits, and its payload is exactly the window after the length |
| Terms.UnknownTagConsumesOneByte | src/bert.cpp:274-275 | a tag without a body reader (NIL, SMALL_ATOM, FLOAT, LARGE_BIG, unknown) is a bare node of one byte |
| Terms.ListShape | src/bert.cpp:262-267 | a decoded LIST_EXT has a non-negative count and those children, and the byte after them is consumed only when it is NIL_EXT |
| Host.SetProperty | src/bert.cpp:209-209 | `JsSetProperty` keeps the names of an object when the name is present, and appends the name otherwise |
| Host.SetPropertyLookup | src/bert.cpp:209-209 | after `JsSetProperty` of a name, looking that name up gives the new value and every other name is unchanged |
| Host.SetPropertyDistinct | src/bert.cpp:209-209 | setting a property never makes two properties share a name |
| Converter.Convert | src/bert.cpp:127-226 | the cache only gains entries and caches each new name under its own hash; lists and non-dict tuples become arrays of the same length; a dict becomes an object with distinct property names |
| Converter.ConvertItems | src/bert.cpp:114-125 | `convert_list` makes one value per element and only extends the cache |
| Converter.ConvertEntries | src/bert.cpp:193-210 | the dict loop builds properties with distinct names, and the cache only gains entries keyed by their name's hash |
| Converter.IsDict | src/bert.cpp:176-183 | the `{bert, dict, List}` test: arity 3, ATOM_EXT "bert" and ATOM_EXT "dict" of length 4, and a LIST_EXT third element |
| Converter.Convertible | src/bert.cpp:193-197 | every dict entry that `convert` reads is a list or tuple with a string-like key and a value |
| Converter.ConvertAddsKeys | src/bert.cpp:198-207 | the only names `convert` adds to the cache are dict keys of the term it converts |
| Converter.ConvertIsValue | src/bert.cpp:127-226 | when the dict keys of the term share no hash with each other or with a different cached name, and the cache is consistent, `convert` gives the reference value: empty strings false, arrays in index order, dicts as objects |
| Converter.ConvertItemsAreValues | src/bert.cpp:114-125 | under the same no-collision condition on the elements' keys, `convert_list` converts the elements in index order to their reference values |
| Converter.ConvertEntriesIsDictObject | src/bert.cpp:193-210 | under the same no-collision condition on the entries' keys, the dict loop builds the reference object of its entries and keeps the cache consistent |
| Converter.DictObjectAbsentKey | src/bert.cpp:193-210 | a key that no entry has is absent from the object |
| Converter.DictObjectLastWins | src/bert.cpp:193-210 | a key's value is that of its last entry, so a later duplicate overwrites an earlier one |
| Encoder.DecodeEncode | src/bert.cpp:236-278 | decoding the encoding of any encodable term, wherever it sits in a buffer, gives the term back with the cursor just past it |
| Encoder.DecodeEncodeStringLike | src/bert.cpp:241-249 | the length-prefixed string bodies decode to the term they encode |
| Encoder.DecodeEncodeNumber | src/bert.cpp:250-261 | SMALL_INTEGER, INTEGER, SMALL_BIG and NEW_FLOAT bodies decode to the term they encode |
| Encoder.DecodeEncodeList | src/bert.cpp:262-267 | a LIST_EXT body with its NIL tail decodes to the list and consumes the NIL |
| Encoder.DecodeEncodeSmallTuple | src/bert.cpp:268-270 | a SMALL_TUPLE_EXT body decodes to the tuple |
| Encoder.DecodeEncodeLargeTuple | src/bert.cpp:271-273 | a LARGE_TUPLE_EXT body decodes to the tuple |
| Encoder.DecodeEncodeAll | src/bert.cpp:330-340 | the concatenated encodings of n terms decode to those n terms in order |
| Encoder.ListNilIsOptional | src/bert.cpp:262-267 | a list decodes to the same children with or without a trailing NIL_EXT; the following byte is consumed only when it is NIL_EXT |
| Bert.Decode | src/bert.cpp:72-84 | an empty buffer is truncated, a first byte other than 131 gives false with the cache untouched, and a success only extends the cache and keeps it consistent |
| Bert.BertDecode | src/bert.cpp:86-100 | an empty buffer gives true without decoding, a first byte other than 131 gives false, and a success only extends the cache |
| Bert.DecodeStream | src/bert.cpp:72-84 | version byte, encoded term and any trailing bytes decode to the term's reference value, when the term's dict keys share no hash with each other or with a different cached name |
| Bert.UnknownTagIsFalse | src/bert.cpp:217-223 | a stream whose term tag has no body reader gives false |
| Bert.LargeTupleIsFalse | src/bert.cpp:217-223 | a decodable LARGE_TUPLE_EXT stream gives false |
| Bert.AtomOrStringValue | src/bert.cpp:129-144 | an ATOM_EXT or STRING_EXT stream succeeds exactly when its length fits, and gives false for length 0 and otherwise a string of exactly the payload bytes |
| Bert.DictIsObject | src/bert.cpp:174-211 | a two-entry dict stream becomes an object with one property per distinct key, the later value winning for a repeated key; two different keys only need different hashes |
| Bert.SmallDictIsObject | src/bert.cpp:174-211 | `{bert, dict, [{a, 1}, {b, 2}]}` becomes the object {a: 1, b: 2} whenever `a` and `b` hash differently |
| Bert.RepeatedKeyLastWins | src/bert.cpp:193-210 | `{bert, dict, [{a, 1}, {a, 2}]}` becomes the object {a: 2}, whatever the hash |
| Bert.FirstEntryCached | src/bert.cpp:198-207 | the first key of a dict misses the empty cache, so its name is cached under its hash |
| Bert.CollidingKeysMerge | src/bert.cpp:198-207 | two keys whose hashes collide share the property id created from the first key, so both entries land on the first name |
| CouchArgs.Defaults | src/couch_args.c:29-30 | the record before the loop: no flag set, a stack size of 64 MiB, no URI file |
| CouchArgs.Kind | src/couch_args.c:33-66 | the `strcmp` chain: only `--no-eval` and two-character words starting with `-` are options; a word that is empty or does not start with `-` is always the first script |
| CouchArgs.ParseOptions | src/couch_args.c:32-68 | the loop exits only with codes 0, 2 or 3, yields at least one script, and keeps a positive stack size positive |
| CouchArgs.Parse | src/couch_args.c:19-77 | `couch_parse_args` exits only with codes 0, 2 or 3; with no argument after the program name it exits with 3; the scripts are non-empty, never include `argv[0]`, and the stack size is positive |
| CouchArgs.ParseArgs | src/couch_args.c:19-77 | the index loop as the C code runs it has the same outcome as the option function |
| CouchArgs.ScriptsAreSuffix | src/couch_args.c:61-74 | the scripts are the arguments left when option parsing stops |
| CouchArgs.ParseScriptsAreSuffix | src/couch_args.c:74-74 | `scripts` is a suffix of `argv` |
| CouchArgs.HelpExitsZero | src/couch_args.c:33-38 | `-h` or `-V` as the first argument exits with 0, whatever follows |
| CouchArgs.FlagStep | src/couch_args.c:39-50 | a flag option consumes one argument and sets its flag, with nothing else changed |
| CouchArgs.StackStep | src/couch_args.c:51-56 | `-S` with a positive value consumes two arguments and sets the stack size |
| CouchArgs.BadStackSizeExitsTwo | src/couch_args.c:51-56 | `-S` with a value `atoi` reads as zero or less exits with 2 |
| CouchArgs.UriStep | src/couch_args.c:57-58 | `-u` consumes two arguments and sets the URI file |
| CouchArgs.EndStep | src/couch_args.c:61-63 | `--` is consumed and every argument after it is a script |
| CouchArgs.FirstScriptStopsOptions | src/couch_args.c:64-66 | an argument that is not an option ends option parsing without being consumed: the defaults stand and every argument after the program name is a script |
| CouchArgs.SwapFlags | src/couch_args.c:39-50 | two adjacent flag options can be given in either order |
| CouchArgs.RepeatFlag | src/couch_args.c:39-50 | a flag option given twice in a row acts as once |
| CouchArgs.Word | src/couch_args.c:39-60 | every flag has an option word that the loop reads back as that flag |
| CouchArgs.ParseWords | src/couch_args.c:39-60 | a run of flag options sets exactly those flags |
| CouchArgs.ParseUnparse | src/couch_args.c:19-77 | parsing the command line built from any options and non-empty scripts gives those options and scripts back |

## Left out

- Script-engine calls (`JsCreateString`, `JsCreateArray`, `JsSetProperty`, `JsCreatePropertyId`, `JsAddRef`, …) are constructors of the immutable `HostValue` datatype. Property ids are modelled by the name they were created from.
- Floating point: a NEW_FLOAT_EXT is kept as its 64-bit IEEE-754 pattern, and a SMALL_BIG_EXT as the exact integer handed to `JsDoubleToNumber`; the rounding to a double is not modelled.
- Byte order of the host: the reversed copy in `decode_new_float` is read as on the little-endian machines the program targets.
- The t1ha hash is a function parameter with 64-bit results, because it is a foreign library. Its collisions are possible and are shown by `Bert.CollidingKeysMerge`. The reference-value results require only that the dict keys of the term being converted share no hash with each other or with a different name already cached.
- Memory management (`malloc`, `delete` of a `malloc`ed string, leaked nodes), a `malloc` returning NULL in either file, and the C stack on deeply nested input: `decode_intern_`/`decode_list` and `convert`/`convert_list` recurse without a depth limit, while the model's functions always return.
- Out-of-bounds reads: the C readers never check bounds. Here a read past the end of the buffer, including the NIL peek after the last list element, is `Err(Truncated)`.
- Terms.AtomOrStringIsWindow: an ATOM_EXT or STRING_EXT length that runs past the end of the buffer is `Err(Truncated)`, although `decode_string` only records the span and moves the cursor. C reads such a span when `convert` makes a string or a property name of it, or compares it with `bert` or `dict`. It never reads it when the span lies inside a LARGE_TUPLE_EXT, or when it is an element past the second of a dict entry, because `convert` reads only `head[0]` and `head[1]` of an entry (src/bert.cpp:194-196). Where decoding also stops there, C gives a defined result and the model gives `Err(Truncated)`.
- Terms.BinaryIsWindow: the same holds for a BINARY_EXT length that runs past the end of the buffer. A 4-byte length can also wrap C's cursor back into the buffer, and C then keeps decoding within bounds. For example, take the 35 bytes 131, 104, 3, 100, 0, 4, `bert`, 100, 0, 4, `dict`, 108, 0, 0, 0, 1, 104, 3, 100, 0, 1, `a`, 97, 1, 109, 255, 255, 255, 255. After the BINARY_EXT length, the cursor is 35. Adding 2^32 - 1 wraps it to 34, and the NIL peek reads byte 34 (255) and leaves the cursor there. `convert` gives the object {a: 1}. The model gives `Err(Truncated)`.
- The decoding cursor is an unbounded `nat`. In C it is an `unsigned int` (src/bert.cpp:73) that `decode_string` advances modulo 2^32 (src/bert.cpp:326). The wrap-around in the line above is therefore not modelled.
- Two further undefined cases are reported as errors. A SMALL_BIG_EXT length over 8 reads past `powers` and is `Err(BigTooWide)`. A dict entry that is not a list or tuple of at least two elements with a string-like first element is `Err(UndefinedDictEntry)`; the C code reinterprets such an entry anyway.
- `atoi` is a parameter of the parser.
- A final `-S` calls `atoi` on the null pointer `argv[argc]`; that outcome is `Undefined`. A final `-u` stores the null pointer and then exits with 3, which is modelled.
- `use_evented` is set by the option loop at src/couch_args.c:46 but missing from the record declared in src/couch_args.h:24-34. The model keeps the flag.
- The seven on/off fields of `couch_args` are the set of flags that are 1, which is equivalent because the loop only ever sets them to 1.
- Printing usage and version text (`DISPLAY_USAGE`, `DISPLAY_VERSION`, the stack-size message) is left out; only the exit codes are modelled.
- Strings and property names are compared as raw bytes. `JsCreateString` and `JsCreatePropertyId` decode UTF-8, so two different byte strings that are not valid UTF-8 may become the same engine string or property. `Host.DistinctNames`, `Converter.DictObjectLastWins` and the object results hold at the byte level only.
- Objects are property lists in insertion order. The script engine's own ordering of index-like property names is not modelled.
- `src/main.c`, `src/main.cpp`, `src/uv_chakra.cpp`, `src/chakra_console.cpp`, `src/couch_readline.c` and `src/couch_readfile.c` are host setup, the event loop and I/O. `js/` and `tests/` are script code run by the engine. None of them is part of this model.
- `BertConstructor` only registers `decode` on an object, so it is not part of this model.

=== FILE: args.dfy ===
/** `couch_parse_args` of `src/couch_args.c`: one left-to-right pass over
    `argv` that either yields the options and the scripts to run or ends
    the process with an exit code. `atoi` is a parameter. */
module CouchArgs {
  import opened Results

  /** The `couch_args` record without `scripts`, which is only known once
      option parsing stops. The `int` fields that options only ever set to
      1 (`no_eval`, `use_http`, `use_test_funs`, `use_legacy`,
      `use_evented`, `use_jasmine`, `debug`) are the set of flags that are
      1. `uriFile` is `None` for a null pointer. */
  datatype Options = Options(flags: set<Flag>, stackSize: int, uriFile: Option<string>)

  /** How a call ends: the record, `exit(code)`, or behaviour C leaves
      undefined (`atoi` of the null pointer after a final `-S`). */
  datatype Outcome = Parsed(options: Options, scripts: seq<string>) | Exit(code: int) | Undefined

  /** The options that only set a flag. */
  datatype Flag = NoEval | Http | TestFuns | Legacy | Evented | Jasmine | Debug

  const DefaultStackSize: int := 64 * 1024 * 1024

  /** The record after `memset` and the `stack_size` assignment. */
  const Defaults: Options :=
    Options({}, DefaultStackSize, None)

  /** What the option loop makes of one argument. */
  datatype ArgKind =
    | Stop                 // `-h`, `-V`: usage or version, then exit(0)
    | SetFlag(flag: Flag)  // `-H`, `-T`, `-L`, `-e`, `-j`, `-d`, `--no-eval`
    | StackSize            // `-S`: the next argument is the stack size
    | UriFile              // `-u`: the next argument is the URI file
    | EndOfOptions         // `--`: consumed, and the scripts follow
    | Script               // anything else: the first script

  /** The `strcmp` chain of the loop. The strings it compares with are
      pairwise distinct, so at most one comparison succeeds and their order
      does not matter; the two-character options are told apart by their
      second character. Only `--no-eval` and two-character words starting
      with `-` are options: anything else, such as a file name, is a
      script. */
  function Kind(arg: string): (r: ArgKind)
    ensures r != Script ==> (|arg| == 2 && arg[0] == '-') || arg == "--no-eval"
    ensures |arg| == 0 || arg[0] != '-' ==> r == Script
  {
    if |arg| == 2 && arg[0] == '-' then
      match arg[1]
      case 'h' => Stop
      case 'V' => Stop
      case 'H' => SetFlag(Http)
      case 'T' => SetFlag(TestFuns)
      case 'L' => SetFlag(Legacy)
      case 'e' => SetFlag(Evented)
      case 'j' => SetFlag(Jasmine)
      case 'd' => SetFlag(Debug)
      case 'S' => StackSize
      case 'u' => UriFile
      case '-' => EndOfOptions
      case _ => Script
    else if arg == "--no-eval" then SetFlag(NoEval)
    else Script
  }

  /** The field of one flag option set to 1. */
  function Set(o: Options, f: Flag): Options
  {
    o.(flags := o.flags + {f})
  }

  /** The end of option parsing with `args` left: none left is exit code
      3, otherwise they are the scripts. */
  function Finish(args: seq<string>, o: Options): (r: Outcome)
    ensures r.Exit? <==> args == []
    ensures r.Exit? ==> r.code == 3
    ensures r.Parsed? ==> r.options == o && r.scripts == args
  {
    if args == [] then Exit(3) else Parsed(o, args)
  }

  /** The option loop over the arguments not read yet, with the record so
      far. */
  function ParseOptions(args: seq<string>, o: Options, atoi: string -> int): (r: Outcome)
    decreases |args|
    ensures r.Exit? ==> r.code in {0, 2, 3}
    ensures r.Parsed? ==> r.scripts != [] && |r.scripts| <= |args|
    ensures r.Parsed? && o.stackSize > 0 ==> r.options.stackSize > 0
  {
    if args == [] then Exit(3)
    else
      match Kind(args[0])
      case Stop => Exit(0)
      case SetFlag(f) => ParseOptions(args[1..], Set(o, f), atoi)
      case StackSize =>
        // A final `-S` hands argv[argc], the null pointer, to `atoi`.
        if |args| == 1 then Undefined
        else
          var n := atoi(args[1]);
          if n <= 0 then Exit(2) else ParseOptions(args[2..], o.(stackSize := n), atoi)
      case UriFile =>
        // A final `-u` stores argv[argc], the null pointer, and leaves i past argc.
        if |args| == 1 then Exit(3)
        else ParseOptions(args[2..], o.(uriFile := Some(args[1])), atoi)
      case EndOfOptions => Finish(args[1..], o)
      case Script => Finish(args, o)
  }

  /** `couch_parse_args`: `argv[0]` is the program name. */
  function Parse(argv: seq<string>, atoi: string -> int): (r: Outcome)
    ensures r.Exit? ==> r.code in {0, 2, 3}
    ensures r.Parsed? ==> r.scripts != [] && |r.scripts| < |argv|
    ensures r.Parsed? ==> r.options.stackSize > 0
    ensures |argv| <= 1 ==> r == Exit(3)
  {
    if argv == [] then Exit(3) else ParseOptions(argv[1..], Defaults, atoi)
  }

  /** The loop of `couch_parse_args` over the index `i`, as the C code
      runs it. */
  method ParseArgs(argv: seq<string>, atoi: string -> int) returns (r: Outcome)
    ensures r == Parse(argv, atoi)
  {
    var o := Defaults;
    var i := 1;
    while i < |argv|
      invariant 1 <= i
      invariant i <= |argv| + 1
      invariant Parse(argv, atoi) == (if i <= |argv| then ParseOptions(argv[i..], o, atoi) else Exit(3))
      decreases |argv| - i
    {
      var kind := Kind(argv[i]);
      assert argv[i..][0] == argv[i];
      if kind == Stop {
        return Exit(0);
      } else if kind.SetFlag? {
        o := Set(o, kind.flag);
        assert argv[i..][1..] == argv[i + 1..];
      } else if kind == StackSize {
        if i + 1 == |argv| {
          return Undefined;
        }
        i := i + 1;
        o := o.(stackSize := atoi(argv[i]));
        if o.stackSize <= 0 {
          return Exit(2);
        }
        assert argv[i - 1..][2..] == argv[i + 1..];
      } else if kind == UriFile {
        if i + 1 == |argv| {
          // argv[argc] is the null pointer
          i := i + 1;
          o := o.(uriFile := None);
        } else {
          i := i + 1;
          o := o.(uriFile := Some(argv[i]));
          assert argv[i - 1..][2..] == argv[i + 1..];
        }
      } else if kind == EndOfOptions {
        i := i + 1;
        assert argv[i - 1..][1..] == argv[i..];
        break;
      } else {
        break;
      }
      i := i + 1;
    }
    if i >= |argv| {
      return Exit(3);
    }
    return Parsed(o, argv[i..]);
  }

  // ---------------------------------------------------------------- lemmas

  /** The scripts are the arguments left when option parsing stops. */
  lemma {:induction false} ScriptsAreSuffix(args: seq<string>, o: Options, atoi: string -> int)
    decreases |args|
    ensures var r := ParseOptions(args, o, atoi);
      r.Parsed? ==> r.scripts == args[|args| - |r.scripts|..]
  {
    if args != [] {
      match Kind(args[0])
      case SetFlag(f) =>
        ScriptsAreSuffix(args[1..], Set(o, f), atoi);
      case StackSize =>
        if |args| > 1 {
          ScriptsAreSuffix(args[2..], o.(stackSize := atoi(args[1])), atoi);
        }
      case UriFile =>
        if |args| > 1 {
          ScriptsAreSuffix(args[2..], o.(uriFile := Some(args[1])), atoi);
        }
      case _ =>
    }
  }

  /** `args->scripts` points into `argv`: the scripts are its last elements. */
  lemma ParseScriptsAreSuffix(argv: seq<string>, atoi: string -> int)
    ensures var r := Parse(argv, atoi);
      r.Parsed? ==> r.scripts == argv[|argv| - |r.scripts|..]
  {
    if argv != [] {
      ScriptsAreSuffix(argv[1..], Defaults, atoi);
    }
  }

  /** Two adjacent flag options may be given in either order. */
  lemma SwapFlags(args: seq<string>, o: Options, atoi: string -> int)
    requires |args| >= 2 && Kind(args[0]).SetFlag? && Kind(args[1]).SetFlag?
    ensures ParseOptions([args[1], args[0]] + args[2..], o, atoi) == ParseOptions(args, o, atoi)
  {
    var swapped := [args[1], args[0]] + args[2..];
    var f, g := Kind(args[0]).flag, Kind(args[1]).flag;
    assert swapped[1..][1..] == args[1..][1..];
    assert o.flags + {f} + {g} == o.flags + {g} + {f};
  }

  /** A flag option given twice in a row acts as once. */
  lemma RepeatFlag(args: seq<string>, o: Options, atoi: string -> int)
    requires args != [] && Kind(args[0]).SetFlag?
    ensures ParseOptions([args[0]] + args, o, atoi) == ParseOptions(args, o, atoi)
  {
    assert ([args[0]] + args)[1..][1..] == args[1..];
  }

  /** `-h` or `-V` as the first argument exits with 0, whatever follows. */
  lemma HelpExitsZero(argv: seq<string>, atoi: string -> int)
    requires |argv| >= 2 && (argv[1] == "-h" || argv[1] == "-V")
    ensures Parse(argv, atoi) == Exit(0)
  {
  }

  /** `-S` with a value `atoi` reads as zero or negative exits with 2. */
  lemma BadStackSizeExitsTwo(args: seq<string>, o: Options, atoi: string -> int)
    requires |args| >= 2 && args[0] == "-S" && atoi(args[1]) <= 0
    ensures ParseOptions(args, o, atoi) == Exit(2)
  {
  }

  /** When the first argument is not an option, every argument after the
      program name is a script and the defaults stand. */
  lemma FirstScriptStopsOptions(argv: seq<string>, atoi: string -> int)
    requires |argv| >= 2 && Kind(argv[1]) == Script
    ensures Parse(argv, atoi) == Parsed(Defaults, argv[1..])
  {
  }

  // ------------------------------------------------------------ unparsing

  /** The option word of a flag; `Kind` reads it back. */
  function Word(f: Flag): (r: string)
    ensures Kind(r) == SetFlag(f)
  {
    match f
    case NoEval => "--no-eval"
    case Http => "-H"
    case TestFuns => "-T"
    case Legacy => "-L"
    case Evented => "-e"
    case Jasmine => "-j"
    case Debug => "-d"
  }

  function Words(fs: seq<Flag>): (r: seq<string>)
    ensures |r| == |fs| && forall i :: 0 <= i < |fs| ==> Kind(r[i]) == SetFlag(fs[i])
  {
    if fs == [] then [] else [Word(fs[0])] + Words(fs[1..])
  }

  /** The record after the flag options `fs`, in order. */
  function SetAll(o: Options, fs: seq<Flag>): (r: Options)
    ensures forall g: Flag :: g in r.flags <==> g in fs || g in o.flags
    ensures r.stackSize == o.stackSize && r.uriFile == o.uriFile
    decreases fs
  {
    if fs == [] then o else SetAll(Set(o, fs[0]), fs[1..])
  }

  const AllFlags: seq<Flag> := [NoEval, Http, TestFuns, Legacy, Evented, Jasmine, Debug]

  lemma AllFlagsListed()
    ensures forall g: Flag :: g in AllFlags
  {
    forall g: Flag ensures g in AllFlags {
      match g
      case NoEval => assert AllFlags[0] == g;
      case Http => assert AllFlags[1] == g;
      case TestFuns => assert AllFlags[2] == g;
      case Legacy => assert AllFlags[3] == g;
      case Evented => assert AllFlags[4] == g;
      case Jasmine => assert AllFlags[5] == g;
      case Debug => assert AllFlags[6] == g;
    }
  }

  /** The flags of `fs` that `o` has set, in order. */
  function Select(o: Options, fs: seq<Flag>): (r: seq<Flag>)
    decreases fs
    ensures forall g: Flag :: g in r <==> g in fs && g in o.flags
  {
    if fs == [] then [] else (if fs[0] in o.flags then [fs[0]] else []) + Select(o, fs[1..])
  }

  /** The flags a record has set. */
  function FlagsOf(o: Options): (fs: seq<Flag>)
    ensures forall g: Flag :: g in fs <==> g in o.flags
  {
    AllFlagsListed();
    Select(o, AllFlags)
  }

  /** A command line that asks for `o` and runs `scripts`: the stack size
      as `sizeArg`, the URI file if any, the flags, then `--`. */
  function Unparse(prog: string, o: Options, sizeArg: string, scripts: seq<string>): seq<string>
  {
    [prog] + (["-S", sizeArg] + (UriWords(o) + (Words(FlagsOf(o)) + (["--"] + scripts))))
  }

  function UriWords(o: Options): seq<string>
  {
    if o.uriFile.Some? then ["-u", o.uriFile.value] else []
  }

  lemma FlagStep(w: string, rest: seq<string>, o: Options, atoi: string -> int)
    requires Kind(w).SetFlag?
    ensures ParseOptions([w] + rest, o, atoi) == ParseOptions(rest, Set(o, Kind(w).flag), atoi)
  {
    assert ([w] + rest)[1..] == rest;
  }

  /** Flag options are read one by one. */
  lemma {:induction false} ParseWords(fs: seq<Flag>, rest: seq<string>, o: Options, atoi: string -> int)
    decreases fs
    ensures ParseOptions(Words(fs) + rest, o, atoi) == ParseOptions(rest, SetAll(o, fs), atoi)
  {
    if fs == [] {
      assert Words(fs) + rest == rest;
    } else {
      assert Words(fs) + rest == [Word(fs[0])] + (Words(fs[1..]) + rest);
      FlagStep(Word(fs[0]), Words(fs[1..]) + rest, o, atoi);
      ParseWords(fs[1..], rest, Set(o, fs[0]), atoi);
    }
  }

  lemma StackStep(size: string, rest: seq<string>, o: Options, atoi: string -> int)
    requires atoi(size) > 0
    ensures ParseOptions(["-S", size] + rest, o, atoi) == ParseOptions(rest, o.(stackSize := atoi(size)), atoi)
  {
    var args := ["-S", size] + rest;
    assert args[0] == "-S" && args[1] == size && args[2..] == rest;
    assert Kind("-S") == StackSize;
  }

  lemma UriStep(uri: string, rest: seq<string>, o: Options, atoi: string -> int)
    ensures ParseOptions(["-u", uri] + rest, o, atoi) == ParseOptions(rest, o.(uriFile := Some(uri)), atoi)
  {
    var args := ["-u", uri] + rest;
    assert args[0] == "-u" && args[1] == uri && args[2..] == rest;
    assert Kind("-u") == UriFile;
  }

  lemma EndStep(scripts: seq<string>, o: Options, atoi: string -> int)
    requires scripts != []
    ensures ParseOptions(["--"] + scripts, o, atoi) == Parsed(o, scripts)
  {
    assert (["--"] + scripts)[1..] == scripts;
  }

  /** The flags of `o` and then `--` leave the scripts, with the flags set
      on a record that already has the stack size and URI file of `o`. */
  lemma FlagsThenScripts(o: Options, scripts: seq<string>, atoi: string -> int)
    requires scripts != []
    ensures var base := Defaults.(stackSize := o.stackSize, uriFile := o.uriFile);
      ParseOptions(Words(FlagsOf(o)) + (["--"] + scripts), base, atoi) == Parsed(o, scripts)
  {
    var base := Defaults.(stackSize := o.stackSize, uriFile := o.uriFile);
    ParseWords(FlagsOf(o), ["--"] + scripts, base, atoi);
    EndStep(scripts, SetAll(base, FlagsOf(o)), atoi);
    assert SetAll(base, FlagsOf(o)).flags == o.flags;
  }

  /** The same, preceded by the URI file option when `o` has one. */
  lemma UriThenScripts(o: Options, scripts: seq<string>, atoi: string -> int)
    requires scripts != []
    ensures var sized := Defaults.(stackSize := o.stackSize);
      ParseOptions(UriWords(o) + (Words(FlagsOf(o)) + (["--"] + scripts)), sized, atoi) == Parsed(o, scripts)
  {
    var tail := Words(FlagsOf(o)) + (["--"] + scripts);
    FlagsThenScripts(o, scripts, atoi);
    if o.uriFile.Some? {
      UriStep(o.uriFile.value, tail, Defaults.(stackSize := o.stackSize), atoi);
    } else {
      assert UriWords(o) + tail == tail;
    }
  }

  /** Parsing an unparsed command line gives back the record and the
      scripts, whatever the scripts look like. */
  lemma {:induction false} ParseUnparse(prog: string, o: Options, sizeArg: string, scripts: seq<string>, atoi: string -> int)
    requires o.stackSize > 0 && atoi(sizeArg) == o.stackSize && scripts != []
    ensures Parse(Unparse(prog, o, sizeArg, scripts), atoi) == Parsed(o, scripts)
  {
    var rest := UriWords(o) + (Words(FlagsOf(o)) + (["--"] + scripts));
    assert Unparse(prog, o, sizeArg, scripts)[1..] == ["-S", sizeArg] + rest;
    StackStep(sizeArg, rest, Defaults, atoi);
    UriThenScripts(o, scripts, atoi);
  }
}

=== FILE: bert.dfy ===
/** The entry points of `src/bert.cpp`: `Bert_decode` takes the bytes of an
    ArrayBuffer, `decode` checks the version byte, decodes one term and
    converts it. The property-id cache outlives a call, so it goes in and
    comes out. */
module Bert {
  import opened Results
  import opened Wire
  import opened Terms
  import opened Host
  import opened Converter
  import opened Encoder

  /** `decode`: a first byte other than 131 gives `false` without decoding
      anything; otherwise one term is decoded after it and converted. Bytes
      after that term are never looked at. */
  function Decode(buf: Bytes, hash: Hash, cache: Cache): (r: Result<(HostValue, Cache)>)
    ensures |buf| == 0 ==> r == Err(Truncated)
    ensures |buf| > 0 && buf[0] != VersionTag ==> r == Ok((False, cache))
    ensures r.Ok? ==> Extends(r.value.1, cache)
    ensures r.Ok? && Consistent(hash, cache) ==> Consistent(hash, r.value.1)
  {
    var start :- ReadU8(buf, 0);
    if start.0 != VersionTag then Ok((False, cache))
    else
      var t :- DecodeTerm(buf, start.1);
      if !Convertible(t.0) then Err(UndefinedDictEntry)
      else Ok(Convert(t.0, hash, cache))
  }

  /** `Bert_decode`: an empty buffer gives `true` and nothing is decoded;
      any other buffer goes to `decode`. */
  function BertDecode(buf: Bytes, hash: Hash, cache: Cache): (r: Result<(HostValue, Cache)>)
    ensures |buf| == 0 ==> r == Ok((True, cache))
    ensures |buf| > 0 && buf[0] != VersionTag ==> r == Ok((False, cache))
    ensures r.Ok? ==> Extends(r.value.1, cache)
  {
    if |buf| == 0 then Ok((True, cache)) else Decode(buf, hash, cache)
  }

  // ---------------------------------------------------------------- round trip

  /** A BERT stream: the version byte, the encoding of `t`, then anything. */
  function Stream(t: Term, rest: Bytes): (s: Bytes)
    requires Encodable(t)
    ensures |s| == 1 + |Encode(t)| + |rest| && s[0] == VersionTag
  {
    [VersionTag] + Encode(t) + rest
  }

  lemma StreamHoldsTerm(t: Term, rest: Bytes)
    requires Encodable(t)
    ensures At(Stream(t, rest), 1, Encode(t))
  {
    var s := Stream(t, rest);
    assert s[1..1 + |Encode(t)|] == Encode(t);
    AtIsSlice(s, 1, Encode(t));
  }

  /** Decoding a stream gives the reference value of its term, whatever
      follows the term, provided the dict keys of the term do not collide
      with each other or with the names already cached. */
  lemma {:induction false} DecodeStream(t: Term, rest: Bytes, hash: Hash, cache: Cache)
    requires Encodable(t) && Convertible(t)
    requires Consistent(hash, cache) && Unambiguous(hash, Keys(t), cache)
    ensures BertDecode(Stream(t, rest), hash, cache).Ok?
    ensures BertDecode(Stream(t, rest), hash, cache).value.0 == Value(t)
  {
    var s := Stream(t, rest);
    StreamHoldsTerm(t, rest);
    DecodeEncode(s, 1, t);
    ConvertIsValue(t, hash, cache);
  }

  // ---------------------------------------------------------------- quirks

  /** SMALL_ATOM_EXT, FLOAT_EXT, LARGE_BIG_EXT, NIL_EXT and every other tag
      without a body reader give `false`. */
  lemma UnknownTagIsFalse(buf: Bytes, hash: Hash, cache: Cache)
    requires |buf| >= 2 && buf[0] == VersionTag && !HasBody(buf[1])
    ensures BertDecode(buf, hash, cache) == Ok((False, cache))
  {
    UnknownTagConsumesOneByte(buf, 1);
  }

  /** A LARGE_TUPLE_EXT is decoded, then converted to `false`. */
  lemma LargeTupleIsFalse(buf: Bytes, hash: Hash, cache: Cache)
    requires |buf| >= 2 && buf[0] == VersionTag && buf[1] == LargeTupleTag
    requires DecodeTerm(buf, 1).Ok?
    ensures BertDecode(buf, hash, cache) == Ok((False, cache))
  {
    DecodeTermStep(buf, 1);
  }

  /** An ATOM_EXT or STRING_EXT of length 0 gives `false`; a longer one
      gives a string of exactly its payload bytes. */
  lemma AtomOrStringValue(buf: Bytes, hash: Hash, cache: Cache)
    requires |buf| >= 4 && buf[0] == VersionTag && buf[1] in {AtomTag, StringTag}
    ensures var len := 256 * (buf[2] as int) + buf[3];
      var r := BertDecode(buf, hash, cache);
      && (r.Ok? <==> 4 + len <= |buf|)
      && (r.Ok? ==> r.value == (if len == 0 then False else String(buf[4..4 + len]), cache))
  {
    AtomOrStringIsWindow(buf, 1);
  }

  // ---------------------------------------------------------------- examples

  const A: Bytes := [97]
  const B: Bytes := [98]

  /** `{bert, dict, [{a, 1}, {b, 2}]}` */
  const SmallDict: Term := TwoEntryDict(A, 1, B, 2)

  /** The same dict with both entries under the key `a`. */
  const RepeatedKey: Term := TwoEntryDict(A, 1, A, 2)

  /** A dict stream becomes an object with one property per key. */
  lemma SmallDictIsObject(rest: Bytes, hash: Hash)
    requires hash(A) != hash(B)
    ensures Encodable(SmallDict) && BertDecode(Stream(SmallDict, rest), hash, map[]).Ok?
    ensures Encodable(SmallDict) && BertDecode(Stream(SmallDict, rest), hash, map[]).value.0
         == Object([Property(A, Int(1)), Property(B, Int(2))])
  {
    DictIsObject(A, 1, B, 2, rest, hash);
  }

  /** A key repeated later in a dict overwrites the earlier value, whatever
      the hash. */
  lemma RepeatedKeyLastWins(rest: Bytes, hash: Hash)
    ensures Encodable(RepeatedKey) && BertDecode(Stream(RepeatedKey, rest), hash, map[]).Ok?
    ensures Encodable(RepeatedKey) && BertDecode(Stream(RepeatedKey, rest), hash, map[]).value.0
         == Object([Property(A, Int(2))])
  {
    DictIsObject(A, 1, A, 2, rest, hash);
  }

  function Entry(k: Bytes, v: Byte): Term
  {
    SmallTuple([Atom(k), SmallInteger(v)])
  }

  function TwoEntryDict(k1: Bytes, v1: Byte, k2: Bytes, v2: Byte): Term
  {
    SmallTuple([Atom(BertName), Atom(DictName), List([Entry(k1, v1), Entry(k2, v2)])])
  }

  lemma TwoEntryDictIsWellFormed(k1: Bytes, v1: Byte, k2: Bytes, v2: Byte)
    requires |k1| < TwoTo16 && |k2| < TwoTo16
    ensures Encodable(TwoEntryDict(k1, v1, k2, v2)) && Convertible(TwoEntryDict(k1, v1, k2, v2))
  {
    var e1, e2 := Entry(k1, v1), Entry(k2, v2);
    var t := TwoEntryDict(k1, v1, k2, v2);
    assert AllEncodable(e1.items) && AllEncodable(e2.items);
    assert AllEncodable([e1, e2]);
    assert AllEncodable(t.items);
    assert IsDict(t.items);
  }

  lemma TwoEntryDictObject(k1: Bytes, v1: Byte, k2: Bytes, v2: Byte)
    ensures var entries := [Entry(k1, v1), Entry(k2, v2)];
      DictObject(entries)
        == if k1 == k2 then [Property(k1, Int(v2))]
           else [Property(k1, Int(v1)), Property(k2, Int(v2))]
  {
    var e1, e2 := Entry(k1, v1), Entry(k2, v2);
    var entries := [e1, e2];
    assert [e1][..0] == [] && KeyOf(e1) == k1 && Value(e1.items[1]) == Int(v1);
    assert DictObject([e1][..0]) == DictObject([]) == [];
    var d1 := DictObject([e1]);
    assert d1 == SetProperty(DictObject([e1][..0]), KeyOf(e1), Value(e1.items[1]));
    assert d1 == [Property(k1, Int(v1))];
    assert entries[..1] == [e1] && KeyOf(e2) == k2 && Value(e2.items[1]) == Int(v2);
    assert DictObject(entries) == SetProperty(d1, k2, Int(v2));
    assert d1[1..] == [];
    if k1 == k2 {
      assert SetProperty(d1, k2, Int(v2)) == [Property(k2, Int(v2))] + d1[1..];
    } else {
      assert SetProperty(d1, k2, Int(v2)) == [d1[0]] + SetProperty(d1[1..], k2, Int(v2));
    }
  }

  /** The keys a two-entry dict hashes are its two keys. */
  lemma TwoEntryDictKeys(k1: Bytes, v1: Byte, k2: Bytes, v2: Byte)
    requires |k1| < TwoTo16 && |k2| < TwoTo16
    ensures Convertible(TwoEntryDict(k1, v1, k2, v2))
    ensures Keys(TwoEntryDict(k1, v1, k2, v2)) == {k1, k2}
  {
    TwoEntryDictIsWellFormed(k1, v1, k2, v2);
    var e1, e2 := Entry(k1, v1), Entry(k2, v2);
    var entries := [e1, e2];
    assert entries[..1] == [e1] && [e1][..0] == [];
    assert EntryKeys([e1]) == {k1} by {
      assert EntryKeys([e1]) == EntryKeys([]) + {k1} + Keys(SmallInteger(v1));
    }
    assert EntryKeys(entries) == EntryKeys([e1]) + {k2} + Keys(SmallInteger(v2));
  }

  /** A two-entry dict stream becomes an object: one property per distinct
      key, the later value for a repeated key. Only two different keys
      need different hashes. */
  lemma DictIsObject(k1: Bytes, v1: Byte, k2: Bytes, v2: Byte, rest: Bytes, hash: Hash)
    requires k1 != k2 ==> hash(k1) != hash(k2)
    requires |k1| < TwoTo16 && |k2| < TwoTo16
    ensures var t := TwoEntryDict(k1, v1, k2, v2);
      && Encodable(t)
      && BertDecode(Stream(t, rest), hash, map[]).Ok?
      && BertDecode(Stream(t, rest), hash, map[]).value.0
         == Object(if k1 == k2 then [Property(k1, Int(v2))]
                   else [Property(k1, Int(v1)), Property(k2, Int(v2))])
  {
    var t := TwoEntryDict(k1, v1, k2, v2);
    TwoEntryDictIsWellFormed(k1, v1, k2, v2);
    TwoEntryDictKeys(k1, v1, k2, v2);
    DecodeStream(t, rest, hash, map[]);
    TwoEntryDictObject(k1, v1, k2, v2);
  }

  /** The first entry of a dict misses the empty cache, so its key's name
      is cached under its hash. */
  lemma FirstEntryCached(k: Bytes, v: Byte, hash: Hash)
    ensures ConvertEntries([Entry(k, v)], hash, map[])
         == ([Property(k, Int(v))], map[hash(k) := k])
  {
    var e := Entry(k, v);
    assert [e][..0] == [] && ConvertEntries([], hash, map[]) == ([], map[]);
    assert Convert(SmallInteger(v), hash, map[hash(k) := k]) == (Int(v), map[hash(k) := k]);
  }

  /** With a hash that collides on the two keys, the second key reuses the
      property id made from the first key's name: both entries land on the
      first name. */
  lemma CollidingKeysMerge(hash: Hash)
    requires hash(A) == hash(B)
    ensures var entries := [Entry(A, 1), Entry(B, 2)];
      Convert(SmallTuple([Atom(BertName), Atom(DictName), List(entries)]), hash, map[]).0
        == Object([Property(A, Int(2))])
  {
    var entries := [Entry(A, 1), Entry(B, 2)];
    var c: Cache := map[hash(A) := A];
    FirstEntryCached(A, 1, hash);
    assert entries[..1] == [Entry(A, 1)] && hash(B) in c && c[hash(B)] == A;
    assert Convert(SmallInteger(2), hash, c) == (Int(2), c);
    assert ConvertEntries(entries, hash, map[]) == (SetProperty([Property(A, Int(1))], A, Int(2)), c);
  }
}

=== FILE: converter.dfy ===
/** `convert` and `convert_list` of `src/bert.cpp`: a decoded term becomes
    one host value. The property-id cache `propCache1`, keyed by the t1ha
    hash of a property name, is threaded through the conversion; the hash
    itself is a parameter. */
module Converter {
  import opened Results
  import opened Wire
  import opened Terms
  import opened Host

  const BertName: Bytes := [98, 101, 114, 116]
  const DictName: Bytes := [100, 105, 99, 116]

  /** The 64-bit t1ha hash of a property name (external library). */
  type Hash = Bytes -> U64

  /** `propCache1`: key hash to the name its property id was created from. */
  type Cache = map<U64, Bytes>

  /** The `{bert, dict, List}` shape: arity 3, the atoms "bert" and "dict"
      (ATOM_EXT only), and a LIST_EXT third element. */
  predicate IsDict(items: seq<Term>)
  {
    && |items| == 3
    && items[0].Atom? && items[0].bytes == BertName
    && items[1].Atom? && items[1].bytes == DictName
    && items[2].List?
  }

  /** A dict entry the C code can read: a list or tuple whose first element
      is a string-like key and which has a second element as value. */
  predicate IsEntry(e: Term)
  {
    e.IsSequence() && |e.items| >= 2 && e.items[0].IsStringLike()
  }

  /** Every dict reached by the conversion has only readable entries. Only
      the parts that `convert` visits are constrained: LARGE_TUPLE_EXT
      children, dict keys and entry elements past the second are never read. */
  predicate Convertible(t: Term)
    decreases t
  {
    match t
    case List(items) => forall i :: 0 <= i < |items| ==> Convertible(items[i])
    case SmallTuple(items) =>
      if IsDict(items) then
        forall j :: 0 <= j < |items[2].items| ==>
          IsEntry(items[2].items[j]) && Convertible(items[2].items[j].items[1])
      else
        forall i :: 0 <= i < |items| ==> Convertible(items[i])
    case _ => true
  }

  /** Each cached name hashes to its own key. */
  predicate Consistent(hash: Hash, cache: Cache)
  {
    forall h :: h in cache ==> hash(cache[h]) == h
  }

  /** `later` keeps every entry of `earlier` unchanged. */
  predicate Extends(later: Cache, earlier: Cache)
  {
    forall h :: h in earlier ==> h in later && later[h] == earlier[h]
  }

  /** `convert`. */
  function Convert(t: Term, hash: Hash, cache: Cache): (r: (HostValue, Cache))
    requires Convertible(t)
    decreases t
    ensures Extends(r.1, cache)
    ensures forall h :: h in r.1 && h !in cache ==> hash(r.1[h]) == h
    ensures t.List? ==> r.0.Array? && |r.0.elems| == |t.items|
    ensures t.SmallTuple? && !IsDict(t.items) ==> r.0.Array? && |r.0.elems| == |t.items|
    ensures t.SmallTuple? && IsDict(t.items) ==> r.0.Object? && DistinctNames(r.0.props)
  {
    match t
    case Atom(s) => (if |s| == 0 then False else String(s), cache)
    case Binary(s) => (if |s| == 0 then False else String(s), cache)
    case Str(s) => (if |s| == 0 then False else String(s), cache)
    case SmallInteger(b) => (Int(b), cache)
    case Integer(i) => (Int(i), cache)
    case SmallBig(n) => (Number(FromInteger(n)), cache)
    case NewFloat(bits) => (Number(FromBits(bits)), cache)
    case List(items) =>
      var r := ConvertItems(items, hash, cache);
      (Array(r.0), r.1)
    case SmallTuple(items) =>
      if IsDict(items) then
        var r := ConvertEntries(items[2].items, hash, cache);
        (Object(r.0), r.1)
      else
        var r := ConvertItems(items, hash, cache);
        (Array(r.0), r.1)
    case LargeTuple(_) => (False, cache)
    case Bare(_) => (False, cache)
  }

  /** `convert_list`: the elements in index order, each converted with the
      cache left by the previous one. */
  function ConvertItems(items: seq<Term>, hash: Hash, cache: Cache): (r: (seq<HostValue>, Cache))
    requires forall i :: 0 <= i < |items| ==> Convertible(items[i])
    decreases items
    ensures |r.0| == |items|
    ensures Extends(r.1, cache)
    ensures forall h :: h in r.1 && h !in cache ==> hash(r.1[h]) == h
  {
    if items == [] then ([], cache)
    else
      var first := Convert(items[0], hash, cache);
      var rest := ConvertItems(items[1..], hash, first.1);
      ([first.0] + rest.0, rest.1)
  }

  /** The dict loop of `convert`, after its last iteration: entry i looks
      its key's hash up in the cache, creates the property id from the key
      on a miss, converts the value and sets it on the object. */
  function ConvertEntries(entries: seq<Term>, hash: Hash, cache: Cache): (r: (seq<Property>, Cache))
    requires forall j :: 0 <= j < |entries| ==> IsEntry(entries[j]) && Convertible(entries[j].items[1])
    decreases entries
    ensures DistinctNames(r.0)
    ensures Extends(r.1, cache)
    ensures forall h :: h in r.1 && h !in cache ==> hash(r.1[h]) == h
  {
    if entries == [] then ([], cache)
    else
      var done := ConvertEntries(entries[..|entries| - 1], hash, cache);
      var e := entries[|entries| - 1];
      assert IsEntry(e) && Convertible(e.items[1]);
      var key := e.items[0].bytes;
      var h := hash(key);
      var cached := if h in done.1 then done.1 else done.1[h := key];
      var v := Convert(e.items[1], hash, cached);
      SetPropertyDistinct(done.0, cached[h], v.0);
      (SetProperty(done.0, cached[h], v.0), v.1)
  }

  // ------------------------------------------------ reference conversion

  function KeyOf(e: Term): Bytes
    requires IsEntry(e)
  {
    e.items[0].bytes
  }

  /** The host value a term stands for when every property name has its own
      property id: strings (empty ones as `false`), numbers, arrays of the
      elements in order, and `{bert, dict, List}` as an object. */
  function Value(t: Term): HostValue
    requires Convertible(t)
    decreases t
  {
    match t
    case Atom(s) => if s == [] then False else String(s)
    case Binary(s) => if s == [] then False else String(s)
    case Str(s) => if s == [] then False else String(s)
    case SmallInteger(b) => Int(b)
    case Integer(i) => Int(i)
    case SmallBig(n) => Number(FromInteger(n))
    case NewFloat(bits) => Number(FromBits(bits))
    case List(items) => Array(seq(|items|, i requires 0 <= i < |items| => Value(items[i])))
    case SmallTuple(items) =>
      if IsDict(items) then Object(DictObject(items[2].items))
      else Array(seq(|items|, i requires 0 <= i < |items| => Value(items[i])))
    case LargeTuple(_) => False
    case Bare(_) => False
  }

  /** The object of a dict's entries: each key set to its value, in order. */
  function DictObject(entries: seq<Term>): seq<Property>
    requires forall j :: 0 <= j < |entries| ==> IsEntry(entries[j]) && Convertible(entries[j].items[1])
    decreases entries
  {
    if entries == [] then []
    else
      var e := entries[|entries| - 1];
      assert IsEntry(e) && Convertible(e.items[1]);
      SetProperty(DictObject(entries[..|entries| - 1]), KeyOf(e), Value(e.items[1]))
  }

  /** The dict keys `convert` hashes while converting `t`. */
  ghost function Keys(t: Term): set<Bytes>
    requires Convertible(t)
    decreases t
  {
    match t
    case List(items) => ItemKeys(items)
    case SmallTuple(items) =>
      if IsDict(items) then EntryKeys(items[2].items) else ItemKeys(items)
    case _ => {}
  }

  ghost function ItemKeys(items: seq<Term>): set<Bytes>
    requires forall i :: 0 <= i < |items| ==> Convertible(items[i])
    decreases items
  {
    if items == [] then {} else Keys(items[0]) + ItemKeys(items[1..])
  }

  ghost function EntryKeys(entries: seq<Term>): set<Bytes>
    requires forall j :: 0 <= j < |entries| ==> IsEntry(entries[j]) && Convertible(entries[j].items[1])
    decreases entries
  {
    if entries == [] then {}
    else
      var e := entries[|entries| - 1];
      assert IsEntry(e) && Convertible(e.items[1]);
      EntryKeys(entries[..|entries| - 1]) + {KeyOf(e)} + Keys(e.items[1])
  }

  /** No two of `names` share a hash, and none shares a hash with a
      different name already in the cache. */
  ghost predicate Unambiguous(hash: Hash, names: set<Bytes>, cache: Cache)
  {
    && (forall a, b :: a in names && b in names && hash(a) == hash(b) ==> a == b)
    && (forall a :: a in names && hash(a) in cache ==> cache[hash(a)] == a)
  }

  /** Every entry `later` has beyond `earlier` caches one of `names`. */
  ghost predicate AddsOnly(later: Cache, earlier: Cache, names: set<Bytes>)
  {
    forall h :: h in later && h !in earlier ==> later[h] in names
  }

  /** After a conversion that only cached names from `used`, the names of
      `next` are still unambiguous. */
  lemma StillUnambiguous(hash: Hash, used: set<Bytes>, next: set<Bytes>, cache: Cache, later: Cache)
    requires Unambiguous(hash, used + next, cache)
    requires Extends(later, cache) && AddsOnly(later, cache, used)
    requires forall h :: h in later && h !in cache ==> hash(later[h]) == h
    ensures Unambiguous(hash, next, later)
  {
    forall a | a in next && hash(a) in later
      ensures later[hash(a)] == a
    {
      if hash(a) !in cache {
        assert later[hash(a)] in used + next;
      }
    }
  }

  /** Two conversions in a row cache only the names of one or the other. */
  lemma AddsOnlyChain(c0: Cache, c1: Cache, c2: Cache, n1: set<Bytes>, n2: set<Bytes>)
    requires AddsOnly(c1, c0, n1) && AddsOnly(c2, c1, n2) && Extends(c2, c1)
    ensures AddsOnly(c2, c0, n1 + n2)
  {
  }

  /** A conversion that caches names only under their own hashes keeps the
      cache consistent. */
  lemma StillConsistent(hash: Hash, cache: Cache, later: Cache)
    requires Consistent(hash, cache) && Extends(later, cache)
    requires forall h :: h in later && h !in cache ==> hash(later[h]) == h
    ensures Consistent(hash, later)
  {
  }

  /** `convert` caches only the dict keys of the term it converts. */
  lemma {:induction false} ConvertAddsKeys(t: Term, hash: Hash, cache: Cache)
    requires Convertible(t)
    decreases t
    ensures AddsOnly(Convert(t, hash, cache).1, cache, Keys(t))
  {
    match t
    case List(items) =>
      ItemsAddKeys(items, hash, cache);
    case SmallTuple(items) =>
      if IsDict(items) {
        EntriesAddKeys(items[2].items, hash, cache);
      } else {
        ItemsAddKeys(items, hash, cache);
      }
    case _ =>
  }

  lemma {:induction false} ItemsAddKeys(items: seq<Term>, hash: Hash, cache: Cache)
    requires forall i :: 0 <= i < |items| ==> Convertible(items[i])
    decreases items
    ensures AddsOnly(ConvertItems(items, hash, cache).1, cache, ItemKeys(items))
  {
    if items != [] {
      var first := Convert(items[0], hash, cache);
      ConvertAddsKeys(items[0], hash, cache);
      ItemsAddKeys(items[1..], hash, first.1);
      var rest := ConvertItems(items[1..], hash, first.1);
      AddsOnlyChain(cache, first.1, rest.1, Keys(items[0]), ItemKeys(items[1..]));
    }
  }

  lemma {:induction false} EntriesAddKeys(entries: seq<Term>, hash: Hash, cache: Cache)
    requires forall j :: 0 <= j < |entries| ==> IsEntry(entries[j]) && Convertible(entries[j].items[1])
    decreases entries
    ensures AddsOnly(ConvertEntries(entries, hash, cache).1, cache, EntryKeys(entries))
  {
    if entries != [] {
      var init := entries[..|entries| - 1];
      var e := entries[|entries| - 1];
      assert IsEntry(e) && Convertible(e.items[1]);
      var key := e.items[0].bytes;
      EntriesAddKeys(init, hash, cache);
      var done := ConvertEntries(init, hash, cache);
      var h := hash(key);
      var cached := if h in done.1 then done.1 else done.1[h := key];
      ConvertAddsKeys(e.items[1], hash, cached);
      var v := Convert(e.items[1], hash, cached);
      AddsOnlyChain(done.1, cached, v.1, {key}, Keys(e.items[1]));
      AddsOnlyChain(cache, done.1, v.1, EntryKeys(init), {key} + Keys(e.items[1]));
      assert EntryKeys(entries) == EntryKeys(init) + ({key} + Keys(e.items[1]));
    }
  }

  /** The property id of an unambiguous key is made from that key, whether
      the cache already holds it or not. */
  lemma CacheKey(hash: Hash, key: Bytes, rest: set<Bytes>, c: Cache)
    requires Consistent(hash, c) && Unambiguous(hash, {key} + rest, c)
    ensures var cached := if hash(key) in c then c else c[hash(key) := key];
      && cached[hash(key)] == key
      && Consistent(hash, cached)
      && Unambiguous(hash, rest, cached)
  {
    assert key in {key} + rest;
  }

  /** When the keys met during the conversion do not collide, with each
      other or with the names already cached, the cached property ids
      change nothing: the converter produces the reference value. */
  lemma {:induction false} ConvertIsValue(t: Term, hash: Hash, cache: Cache)
    requires Convertible(t) && Consistent(hash, cache) && Unambiguous(hash, Keys(t), cache)
    decreases t
    ensures Convert(t, hash, cache).0 == Value(t)
  {
    match t
    case List(items) =>
      ConvertItemsAreValues(items, hash, cache);
    case SmallTuple(items) =>
      if IsDict(items) {
        ConvertEntriesIsDictObject(items[2].items, hash, cache);
      } else {
        ConvertItemsAreValues(items, hash, cache);
      }
    case _ =>
  }

  lemma {:induction false} ConvertItemsAreValues(items: seq<Term>, hash: Hash, cache: Cache)
    requires forall i :: 0 <= i < |items| ==> Convertible(items[i])
    requires Consistent(hash, cache) && Unambiguous(hash, ItemKeys(items), cache)
    decreases items
    ensures ConvertItems(items, hash, cache).0
         == seq(|items|, i requires 0 <= i < |items| => Value(items[i]))
  {
    if items != [] {
      var first := Convert(items[0], hash, cache);
      ConvertIsValue(items[0], hash, cache);
      ConvertAddsKeys(items[0], hash, cache);
      StillUnambiguous(hash, Keys(items[0]), ItemKeys(items[1..]), cache, first.1);
      StillConsistent(hash, cache, first.1);
      ConvertItemsAreValues(items[1..], hash, first.1);
    }
  }

  lemma {:induction false} ConvertEntriesIsDictObject(entries: seq<Term>, hash: Hash, cache: Cache)
    requires forall j :: 0 <= j < |entries| ==> IsEntry(entries[j]) && Convertible(entries[j].items[1])
    requires Consistent(hash, cache) && Unambiguous(hash, EntryKeys(entries), cache)
    decreases entries
    ensures Consistent(hash, ConvertEntries(entries, hash, cache).1)
    ensures ConvertEntries(entries, hash, cache).0 == DictObject(entries)
  {
    if entries != [] {
      var init := entries[..|entries| - 1];
      var e := entries[|entries| - 1];
      assert IsEntry(e) && Convertible(e.items[1]);
      var key := e.items[0].bytes;
      var rest := {key} + Keys(e.items[1]);
      assert EntryKeys(entries) == EntryKeys(init) + rest;
      ConvertEntriesIsDictObject(init, hash, cache);
      EntriesAddKeys(init, hash, cache);
      var done := ConvertEntries(init, hash, cache);
      StillUnambiguous(hash, EntryKeys(init), rest, cache, done.1);
      CacheKey(hash, key, Keys(e.items[1]), done.1);
      var h := hash(key);
      var cached := if h in done.1 then done.1 else done.1[h := key];
      ConvertIsValue(e.items[1], hash, cached);
    }
  }

  /** In the object of a dict, a key that no entry has is absent. */
  lemma {:induction false} DictObjectAbsentKey(entries: seq<Term>, k: Bytes)
    requires forall j :: 0 <= j < |entries| ==> IsEntry(entries[j]) && Convertible(entries[j].items[1])
    requires forall j :: 0 <= j < |entries| ==> KeyOf(entries[j]) != k
    ensures Lookup(DictObject(entries), k) == None
  {
    if entries != [] {
      var e := entries[|entries| - 1];
      DictObjectAbsentKey(entries[..|entries| - 1], k);
      SetPropertyLookup(DictObject(entries[..|entries| - 1]), KeyOf(e), Value(e.items[1]), k);
    }
  }

  /** In the object of a dict, a key has the value of the LAST entry with
      that key: a later duplicate overwrites an earlier one. */
  lemma {:induction false} DictObjectLastWins(entries: seq<Term>, j: nat)
    requires forall i :: 0 <= i < |entries| ==> IsEntry(entries[i]) && Convertible(entries[i].items[1])
    requires j < |entries|
    requires forall i :: j < i < |entries| ==> KeyOf(entries[i]) != KeyOf(entries[j])
    ensures Lookup(DictObject(entries), KeyOf(entries[j])) == Some(Value(entries[j].items[1]))
  {
    var init := entries[..|entries| - 1];
    var e := entries[|entries| - 1];
    assert forall i :: 0 <= i < |init| ==> init[i] == entries[i];
    if j == |entries| - 1 {
      SetPropertyLookup(DictObject(init), KeyOf(e), Value(e.items[1]), KeyOf(e));
    } else {
      DictObjectLastWins(init, j);
      SetPropertyLookup(DictObject(init), KeyOf(e), Value(e.items[1]), KeyOf(entries[j]));
    }
  }
}

=== FILE: encoder.dfy ===
/** A reference encoder for the terms the decoder produces: the wire
    grammar the decoder reads, written in the other direction. It is the
    decoder's partner: decoding an encoding gives back the term and moves
    the cursor exactly past it. The program itself only decodes. */
module Encoder {
  import opened Results
  import opened Wire
  import opened Terms

  /** Terms that have an encoding: every length and count fits its field,
      and a `Bare` node carries a tag the decoder reads no body for. */
  predicate Encodable(t: Term)
    decreases t
  {
    match t
    case SmallInteger(_) => true
    case Integer(i) => -TwoTo31 <= i < TwoTo31
    case SmallBig(n) => -TwoTo63 <= n < TwoTo63
    case NewFloat(bits) => bits < TwoTo64
    case Atom(s) => |s| < TwoTo16
    case Str(s) => |s| < TwoTo16
    case Binary(s) => |s| < TwoTo32
    case List(items) => |items| < TwoTo31 && AllEncodable(items)
    case SmallTuple(items) => |items| < 256 && AllEncodable(items)
    case LargeTuple(items) => |items| < TwoTo31 && AllEncodable(items)
    case Bare(tag) => !HasBody(tag)
  }

  predicate AllEncodable(items: seq<Term>)
    decreases items
  {
    forall i :: 0 <= i < |items| ==> Encodable(items[i])
  }

  function TagOf(t: Term): Byte
  {
    match t
    case SmallInteger(_) => SmallIntegerTag
    case Integer(_) => IntegerTag
    case SmallBig(_) => SmallBigTag
    case NewFloat(_) => NewFloatTag
    case Atom(_) => AtomTag
    case Str(_) => StringTag
    case Binary(_) => BinaryTag
    case List(_) => ListTag
    case SmallTuple(_) => SmallTupleTag
    case LargeTuple(_) => LargeTupleTag
    case Bare(tag) => tag
  }

  /** The length field of a string-like term: 4 bytes for BINARY_EXT,
      2 bytes for ATOM_EXT and STRING_EXT. */
  function LengthField(tag: Byte, len: nat): Bytes
    requires len < (if tag == BinaryTag then TwoTo32 else TwoTo16)
  {
    if tag == BinaryTag then ToBigEndian(len, 4) else ToBigEndian(len, 2)
  }

  /** The encoding of one term: its tag, then its body. */
  function Encode(t: Term): Bytes
    requires Encodable(t)
    decreases t, 1
  {
    [TagOf(t)] + Body(t)
  }

  /** The bytes after the tag. Lists always end with NIL_EXT; SMALL_BIG
      values use all 8 magnitude bytes with sign byte 0. */
  function Body(t: Term): Bytes
    requires Encodable(t)
    decreases t, 0
  {
    match t
    case SmallInteger(b) => [b]
    case Integer(i) => ToBigEndian(Int32Pattern(i), 4)
    case SmallBig(n) => [8, 0] + ToLittleEndian(Int64Pattern(n), 8)
    case NewFloat(bits) => ToBigEndian(bits, 8)
    case Atom(s) => LengthField(AtomTag, |s|) + s
    case Str(s) => LengthField(StringTag, |s|) + s
    case Binary(s) => LengthField(BinaryTag, |s|) + s
    case List(items) => ToBigEndian(|items|, 4) + EncodeAll(items) + [NilTag]
    case SmallTuple(items) => [|items|] + EncodeAll(items)
    case LargeTuple(items) => ToBigEndian(|items|, 4) + EncodeAll(items)
    case Bare(_) => []
  }

  /** The encodings of `items`, one after the other. */
  function EncodeAll(items: seq<Term>): (e: Bytes)
    requires AllEncodable(items)
    decreases items
  {
    if items == [] then [] else Encode(items[0]) + EncodeAll(items[1..])
  }

  // ---------------------------------------------------------------- windows

  /** A window of bytes `e` that sits at `off` in `buf`, stated byte by
      byte so that proofs about nested windows do not unfold slices. */
  predicate At(buf: Bytes, off: nat, e: Bytes)
  {
    off + |e| <= |buf| && forall i :: 0 <= i < |e| ==> buf[off + i] == e[i]
  }

  /** `At` is the slice equality it abbreviates. */
  lemma AtIsSlice(buf: Bytes, off: nat, e: Bytes)
    ensures At(buf, off, e) <==> off + |e| <= |buf| && buf[off..off + |e|] == e
  {
    if off + |e| <= |buf| && buf[off..off + |e|] == e {
      forall i | 0 <= i < |e| ensures buf[off + i] == e[i] {
        assert buf[off..off + |e|][i] == buf[off + i];
      }
    }
  }

  /** The first byte of a window. */
  lemma AtFirst(buf: Bytes, off: nat, e: Bytes)
    requires At(buf, off, e) && e != []
    ensures buf[off] == e[0]
  {
    assert buf[off + 0] == e[0];
  }

  /** A window holding `x + y` holds `x` and then `y`. */
  lemma SplitWindow(buf: Bytes, off: nat, x: Bytes, y: Bytes)
    requires At(buf, off, x + y)
    ensures At(buf, off, x) && At(buf, off + |x|, y)
  {
    forall i | 0 <= i < |x| ensures buf[off + i] == x[i] {
      assert (x + y)[i] == x[i];
    }
    forall i | 0 <= i < |y| ensures buf[off + |x| + i] == y[i] {
      assert (x + y)[|x| + i] == y[i];
    }
  }

  // ---------------------------------------------------------------- round trip

  /** The window of one encoding holds the tag byte, then the body. */
  lemma SplitTerm(buf: Bytes, off: nat, t: Term)
    requires Encodable(t) && At(buf, off, Encode(t))
    ensures off < |buf| && buf[off] == TagOf(t)
    ensures At(buf, off + 1, Body(t)) && |Encode(t)| == 1 + |Body(t)|
  {
    SplitWindow(buf, off, [TagOf(t)], Body(t));
    AtFirst(buf, off, [TagOf(t)]);
  }

  /** Decoding the encoding of `t`, wherever it sits in a buffer, gives `t`
      and the cursor just past the encoding. */
  lemma {:induction false} DecodeEncode(buf: Bytes, off: nat, t: Term)
    requires Encodable(t) && At(buf, off, Encode(t))
    decreases t, 2
    ensures DecodeTerm(buf, off) == Ok((t, off + |Encode(t)|))
  {
    SplitTerm(buf, off, t);
    if t.IsSequence() {
      DecodeEncodeSequence(buf, off, t);
    } else {
      DecodeEncodeFlat(buf, off, t);
    }
  }

  /** A term without elements, from its tag and its body. */
  lemma DecodeEncodeFlat(buf: Bytes, off: nat, t: Term)
    requires Encodable(t) && !t.IsSequence()
    requires off < |buf| && buf[off] == TagOf(t) && At(buf, off + 1, Body(t))
    ensures DecodeTerm(buf, off) == Ok((t, off + 1 + |Body(t)|))
  {
    DecodeTermStep(buf, off);
    if t.IsStringLike() {
      DecodeEncodeStringLike(buf, off + 1, t);
    } else if !t.Bare? {
      DecodeEncodeNumber(buf, off + 1, t);
    }
  }

  /** A list or tuple, from its tag and its body. */
  lemma {:induction false} DecodeEncodeSequence(buf: Bytes, off: nat, t: Term)
    requires Encodable(t) && t.IsSequence()
    requires off < |buf| && buf[off] == TagOf(t) && At(buf, off + 1, Body(t))
    decreases t, 1
    ensures DecodeTerm(buf, off) == Ok((t, off + 1 + |Body(t)|))
  {
    DecodeTermStep(buf, off);
    if t.List? {
      DecodeEncodeList(buf, off + 1, t);
    } else if t.SmallTuple? {
      DecodeEncodeSmallTuple(buf, off + 1, t);
    } else {
      DecodeEncodeLargeTuple(buf, off + 1, t);
    }
  }

  lemma DecodeEncodeStringLike(buf: Bytes, p: nat, t: Term)
    requires Encodable(t) && t.IsStringLike() && At(buf, p, Body(t))
    ensures DecodeStringLike(buf, p, TagOf(t)) == Ok((t, p + |Body(t)|))
  {
    var hdr := LengthField(TagOf(t), |t.bytes|);
    assert Body(t) == hdr + t.bytes;
    SplitWindow(buf, p, hdr, t.bytes);
    AtIsSlice(buf, p, hdr);
    AtIsSlice(buf, p + |hdr|, t.bytes);
    if t.Binary? {
      ReadU32OfWrite(buf, p, |t.bytes|);
    } else {
      ReadU16OfWrite(buf, p, |t.bytes|);
    }
  }

  lemma DecodeEncodeNumber(buf: Bytes, p: nat, t: Term)
    requires Encodable(t) && (t.SmallInteger? || t.Integer? || t.SmallBig? || t.NewFloat?)
    requires At(buf, p, Body(t))
    ensures DecodeNumber(buf, p, TagOf(t)) == Ok((t, p + |Body(t)|))
  {
    match t
    case SmallInteger(b) =>
      assert buf[p] == Body(t)[0];
    case Integer(i) =>
      AtIsSlice(buf, p, Body(t));
      ReadI32OfWrite(buf, p, i);
    case SmallBig(n) =>
      var mag := ToLittleEndian(Int64Pattern(n), 8);
      SplitWindow(buf, p, [8, 0], mag);
      AtIsSlice(buf, p + 2, mag);
      AtFirst(buf, p, [8, 0]);
      ReadSmallBigOfWrite(buf, p, n);
    case NewFloat(bits) =>
      AtIsSlice(buf, p, Body(t));
      ReadFloatBitsOfWrite(buf, p, bits);
  }

  lemma {:induction false} DecodeEncodeList(buf: Bytes, p: nat, t: Term)
    requires Encodable(t) && t.List? && At(buf, p, Body(t))
    decreases t, 0
    ensures DecodeSequence(buf, p, ListTag) == Ok((t, p + |Body(t)|))
  {
    var count := ToBigEndian(|t.items|, 4);
    var elems := EncodeAll(t.items);
    assert Body(t) == count + (elems + [NilTag]);
    SplitWindow(buf, p, count, elems + [NilTag]);
    SplitWindow(buf, p + 4, elems, [NilTag]);
    var q := p + 4 + |elems|;
    AtFirst(buf, q, [NilTag]);
    AtIsSlice(buf, p, count);
    ReadI32OfWrite(buf, p, |t.items|);
    assert SizeT(|t.items|) == |t.items|;
    DecodeEncodeAll(buf, p + 4, t.items);
    assert ReadU8(buf, q) == Ok((NilTag, q + 1));
  }

  lemma {:induction false} DecodeEncodeSmallTuple(buf: Bytes, p: nat, t: Term)
    requires Encodable(t) && t.SmallTuple? && At(buf, p, Body(t))
    decreases t, 0
    ensures DecodeSequence(buf, p, SmallTupleTag) == Ok((t, p + |Body(t)|))
  {
    var elems := EncodeAll(t.items);
    assert Body(t) == [|t.items|] + elems;
    SplitWindow(buf, p, [|t.items|], elems);
    AtFirst(buf, p, [|t.items|]);
    assert ReadU8(buf, p) == Ok((|t.items|, p + 1));
    DecodeEncodeAll(buf, p + 1, t.items);
  }

  lemma {:induction false} DecodeEncodeLargeTuple(buf: Bytes, p: nat, t: Term)
    requires Encodable(t) && t.LargeTuple? && At(buf, p, Body(t))
    decreases t, 0
    ensures DecodeSequence(buf, p, LargeTupleTag) == Ok((t, p + |Body(t)|))
  {
    var count := ToBigEndian(|t.items|, 4);
    var elems := EncodeAll(t.items);
    assert Body(t) == count + elems;
    SplitWindow(buf, p, count, elems);
    AtIsSlice(buf, p, count);
    ReadI32OfWrite(buf, p, |t.items|);
    assert SizeT(|t.items|) == |t.items|;
    DecodeEncodeAll(buf, p + 4, t.items);
  }

  /** LIST_EXT with or without its NIL_EXT tail: the same elements either
      way; the byte after them is consumed only when it is NIL_EXT. */
  lemma {:induction false} ListNilIsOptional(buf: Bytes, off: nat, items: seq<Term>)
    requires |items| < TwoTo31 && AllEncodable(items)
    requires At(buf, off, [ListTag] + ToBigEndian(|items|, 4) + EncodeAll(items))
    requires off + 5 + |EncodeAll(items)| < |buf|
    ensures var q := off + 5 + |EncodeAll(items)|;
      DecodeTerm(buf, off) == Ok((List(items), if buf[q] == NilTag then q + 1 else q))
  {
    var q := off + 5 + |EncodeAll(items)|;
    ListHeader(buf, off, items);
    DecodeEncodeAll(buf, off + 5, items);
    ListStep(buf, off, |items|, items, q);
  }

  lemma ListHeader(buf: Bytes, off: nat, items: seq<Term>)
    requires |items| < TwoTo31 && AllEncodable(items)
    requires At(buf, off, [ListTag] + ToBigEndian(|items|, 4) + EncodeAll(items))
    ensures off < |buf| && buf[off] == ListTag
    ensures ReadI32(buf, off + 1) == Ok((|items|, off + 5)) && SizeT(|items|) == |items|
    ensures At(buf, off + 5, EncodeAll(items))
  {
    var count := ToBigEndian(|items|, 4);
    SplitWindow(buf, off, [ListTag] + count, EncodeAll(items));
    SplitWindow(buf, off, [ListTag], count);
    AtFirst(buf, off, [ListTag]);
    AtIsSlice(buf, off + 1, count);
    ReadI32OfWrite(buf, off + 1, |items|);
  }

  /** A window holding the encodings of `items` holds the first encoding,
      then the encodings of the rest. */
  lemma SplitAll(buf: Bytes, off: nat, items: seq<Term>) returns (p: nat, q: nat)
    requires items != [] && AllEncodable(items)
    requires At(buf, off, EncodeAll(items))
    ensures Encodable(items[0]) && AllEncodable(items[1..])
    ensures p == off + |Encode(items[0])| && At(buf, off, Encode(items[0]))
    ensures q == p + |EncodeAll(items[1..])| && At(buf, p, EncodeAll(items[1..]))
    ensures q == off + |EncodeAll(items)|
  {
    p := off + |Encode(items[0])|;
    q := p + |EncodeAll(items[1..])|;
    SplitWindow(buf, off, Encode(items[0]), EncodeAll(items[1..]));
  }

  lemma {:induction false} DecodeEncodeAll(buf: Bytes, off: nat, items: seq<Term>)
    requires AllEncodable(items)
    requires At(buf, off, EncodeAll(items))
    decreases items, 1
    ensures DecodeTerms(buf, off, |items|) == Ok((items, off + |EncodeAll(items)|))
  {
    if items == [] {
      assert EncodeAll(items) == [];
    } else {
      DecodeEncodeCons(buf, off, items);
    }
  }

  lemma {:induction false} DecodeEncodeCons(buf: Bytes, off: nat, items: seq<Term>)
    requires items != [] && AllEncodable(items)
    requires At(buf, off, EncodeAll(items))
    decreases items, 0
    ensures DecodeTerms(buf, off, |items|) == Ok((items, off + |EncodeAll(items)|))
  {
    var p, q := SplitAll(buf, off, items);
    DecodeEncode(buf, off, items[0]);
    DecodeEncodeAll(buf, p, items[1..]);
    DecodeTermsCons(buf, off, items, p, q);
  }
}

=== FILE: host.dfy ===
/** The host values the converter builds through the script engine's
    value-construction calls (`JsGetFalseValue`, `JsCreateString`,
    `JsIntToNumber`, `JsDoubleToNumber`, `JsCreateArray`, `JsCreateObject`,
    `JsSetProperty`), as an immutable datatype. */
module Host {
  import opened Results
  import opened Wire

  /** The double a number was made from: either converted from an exact
      integer (`JsDoubleToNumber` of a `long long`) or reinterpreted from a
      64-bit IEEE-754 pattern. Rounding is not modelled. */
  datatype Double = FromInteger(n: int) | FromBits(bits: nat)

  datatype HostValue =
    | False
    | True
    | String(bytes: Bytes)
    | Int(n: int)
    | Number(d: Double)
    | Array(elems: seq<HostValue>)
    | Object(props: seq<Property>)

  /** A named property of an object. */
  datatype Property = Property(name: Bytes, value: HostValue)

  function Names(props: seq<Property>): (r: seq<Bytes>)
    ensures |r| == |props|
    ensures forall i :: 0 <= i < |props| ==> r[i] == props[i].name
  {
    if props == [] then [] else [props[0].name] + Names(props[1..])
  }

  /** An object never holds two properties of the same name. */
  predicate DistinctNames(props: seq<Property>)
  {
    forall i, j :: 0 <= i < j < |props| ==> props[i].name != props[j].name
  }

  /** The value of property `name`, if the object has one. */
  function Lookup(props: seq<Property>, name: Bytes): (r: Option<HostValue>)
    ensures r.Some? <==> name in Names(props)
  {
    if props == [] then None
    else if props[0].name == name then Some(props[0].value)
    else Lookup(props[1..], name)
  }

  /** `JsSetProperty`: an existing property keeps its position and gets the
      new value; a new one is appended. */
  function SetProperty(props: seq<Property>, name: Bytes, v: HostValue): (r: seq<Property>)
    ensures Names(r) == if name in Names(props) then Names(props) else Names(props) + [name]
  {
    if props == [] then [Property(name, v)]
    else if props[0].name == name then [Property(name, v)] + props[1..]
    else
      var tail := SetProperty(props[1..], name, v);
      assert Names(props) == [props[0].name] + Names(props[1..]);
      assert Names([props[0]] + tail) == [props[0].name] + Names(tail);
      [props[0]] + tail
  }

  /** After setting `name` to `v`, looking `name` up gives `v` and every
      other name gives what it gave before. */
  lemma {:induction false} SetPropertyLookup(props: seq<Property>, name: Bytes, v: HostValue, other: Bytes)
    ensures Lookup(SetProperty(props, name, v), name) == Some(v)
    ensures other != name ==> Lookup(SetProperty(props, name, v), other) == Lookup(props, other)
  {
    if props != [] && props[0].name != name {
      SetPropertyLookup(props[1..], name, v, other);
      assert SetProperty(props, name, v)[1..] == SetProperty(props[1..], name, v);
    }
  }

  /** Setting a property keeps the names of an object distinct. */
  lemma SetPropertyDistinct(props: seq<Property>, name: Bytes, v: HostValue)
    requires DistinctNames(props)
    ensures DistinctNames(SetProperty(props, name, v))
  {
    var r := SetProperty(props, name, v);
    assert Names(r) == if name in Names(props) then Names(props) else Names(props) + [name];
    forall i, j | 0 <= i < j < |r|
      ensures r[i].name != r[j].name
    {
      assert Names(r)[i] == r[i].name && Names(r)[j] == r[j].name;
      if name !in Names(props) && j == |props| {
        assert r[i].name == Names(props)[i];
      } else {
        assert Names(r)[i] == Names(props)[i] && Names(r)[j] == Names(props)[j];
      }
    }
  }
}

=== FILE: results.dfy ===
/** The failure kinds of the decoding pipeline and the failure-compatible
    result type every reader and decoder returns. */
module Results {

  /** Why a buffer could not be turned into a host value.
      - Truncated: a read would go past the end of the buffer (the C code
        reads out of bounds there; the model stops instead).
      - BigTooWide: a SMALL_BIG_EXT magnitude longer than the 8 entries of
        the `powers` table.
      - UndefinedDictEntry: a `{bert, dict, List}` entry that is not a list
        or tuple of at least two elements whose first element is a string,
        which the C converter reinterprets as such regardless. */
  datatype Error = Truncated | BigTooWide | UndefinedDictEntry

  datatype Result<+T> = Ok(value: T) | Err(error: Error) {

    predicate IsFailure() {
      Err?
    }

    function PropagateFailure<U>(): Result<U>
      requires Err?
    {
      Err(error)
    }

    function Extract(): T
      requires Ok?
    {
      value
    }
  }

  datatype Option<+T> = None | Some(value: T)
}

=== FILE: terms.dfy ===
/** The recursive term decoder of `src/bert.cpp` (`decode_intern_` and
    `decode_list`): one tag byte selects how the body is read, and lists and
    tuples decode their children by recursion. */
module Terms {
  import opened Results
  import opened Wire

  const VersionTag: Byte := 131
  const NewFloatTag: Byte := 70
  const SmallIntegerTag: Byte := 97
  const IntegerTag: Byte := 98
  const AtomTag: Byte := 100
  const SmallTupleTag: Byte := 104
  const LargeTupleTag: Byte := 105
  const NilTag: Byte := 106
  const StringTag: Byte := 107
  const ListTag: Byte := 108
  const BinaryTag: Byte := 109
  const SmallBigTag: Byte := 110

  /** The tags `decode_intern_` reads a body for. */
  predicate HasBody(tag: Byte)
  {
    tag in {NewFloatTag, SmallIntegerTag, IntegerTag, AtomTag, SmallTupleTag,
            LargeTupleTag, StringTag, ListTag, BinaryTag, SmallBigTag}
  }

  /** A decoded `val` node. String-like payloads are the bytes of the input
      window they were read from; `SmallBig` holds the `long long` the
      magnitude was summed into; `NewFloat` holds the 64-bit pattern of the
      double. Every other tag (NIL_EXT, SMALL_ATOM_EXT, FLOAT_EXT,
      LARGE_BIG_EXT and unknown bytes) becomes a `Bare` node with no body. */
  datatype Term =
    | SmallInteger(byte: Byte)
    | Integer(value: int)
    | SmallBig(long: int)
    | NewFloat(bits: nat)
    | Atom(bytes: Bytes)
    | Binary(bytes: Bytes)
    | Str(bytes: Bytes)
    | List(items: seq<Term>)
    | SmallTuple(items: seq<Term>)
    | LargeTuple(items: seq<Term>)
    | Bare(tag: Byte)
  {
    predicate IsStringLike() {
      Atom? || Binary? || Str?
    }

    predicate IsSequence() {
      List? || SmallTuple? || LargeTuple?
    }
  }

  /** `decode_intern_`: decodes the term whose tag is at `off` and returns it
      with the cursor after it. Every term consumes at least its tag byte. */
  function DecodeTerm(buf: Bytes, off: nat): (r: Result<(Term, nat)>)
    decreases |buf| - off, 1
    ensures r.Ok? ==> off < r.value.1 <= |buf|
  {
    var tag :- ReadU8(buf, off);
    if tag.0 in {AtomTag, StringTag, BinaryTag} then DecodeStringLike(buf, tag.1, tag.0)
    else if tag.0 in {SmallIntegerTag, IntegerTag, SmallBigTag, NewFloatTag} then DecodeNumber(buf, tag.1, tag.0)
    else if tag.0 in {ListTag, SmallTupleTag, LargeTupleTag} then DecodeSequence(buf, tag.1, tag.0)
    else Ok((Bare(tag.0), tag.1))
  }

  /** The bodies of ATOM_EXT and STRING_EXT (2-byte length) and BINARY_EXT
      (4-byte length): the length, then `decode_string`'s span. */
  function DecodeStringLike(buf: Bytes, p: nat, tag: Byte): (r: Result<(Term, nat)>)
    requires tag in {AtomTag, StringTag, BinaryTag}
    ensures r.Ok? ==> p < r.value.1 <= |buf| && r.value.0.IsStringLike()
  {
    if tag == BinaryTag then
      var len :- ReadU32(buf, p);
      var s :- ReadSpan(buf, len.1, len.0);
      Ok((Binary(s.0), s.1))
    else
      var len :- ReadU16(buf, p);
      var s :- ReadSpan(buf, len.1, len.0);
      Ok((if tag == AtomTag then Atom(s.0) else Str(s.0), s.1))
  }

  /** The bodies of SMALL_INTEGER_EXT (1 byte), INTEGER_EXT (4 bytes),
      SMALL_BIG_EXT (length, sign, magnitude) and NEW_FLOAT_EXT (8 bytes):
      each tag gives its own kind of number, in the range of the C type it
      is stored in. */
  function DecodeNumber(buf: Bytes, p: nat, tag: Byte): (r: Result<(Term, nat)>)
    requires tag in {SmallIntegerTag, IntegerTag, SmallBigTag, NewFloatTag}
    ensures r.Ok? ==> p < r.value.1 <= |buf|
    ensures tag == SmallIntegerTag ==> (r.Ok? <==> p + 1 <= |buf|)
    ensures tag == IntegerTag ==> (r.Ok? <==> p + 4 <= |buf|)
    ensures tag == NewFloatTag ==> (r.Ok? <==> p + 8 <= |buf|)
    ensures r.Ok? && tag == SmallIntegerTag ==> r.value.0.SmallInteger? && r.value.1 == p + 1
    ensures r.Ok? && tag == IntegerTag ==>
      r.value.0.Integer? && -TwoTo31 <= r.value.0.value < TwoTo31 && r.value.1 == p + 4
    ensures r.Ok? && tag == NewFloatTag ==>
      r.value.0.NewFloat? && r.value.0.bits < TwoTo64 && r.value.1 == p + 8
    ensures r.Ok? && tag == SmallBigTag ==>
      r.value.0.SmallBig? && -TwoTo63 <= r.value.0.long < TwoTo63 && p + 2 <= r.value.1 <= p + 10
  {
    if tag == SmallIntegerTag then
      var b :- ReadU8(buf, p);
      Ok((SmallInteger(b.0), b.1))
    else if tag == IntegerTag then
      var i :- ReadI32(buf, p);
      Ok((Integer(i.0), i.1))
    else if tag == SmallBigTag then
      var n :- ReadSmallBig(buf, p);
      Ok((SmallBig(n.0), n.1))
    else
      var f :- ReadFloatBits(buf, p);
      Ok((NewFloat(f.0), f.1))
  }

  /** The bodies of LIST_EXT (signed 4-byte count, elements, optional NIL),
      SMALL_TUPLE_EXT (1-byte count) and LARGE_TUPLE_EXT (signed 4-byte
      count). A signed count reaches `decode_list` as a `size_t`. */
  function DecodeSequence(buf: Bytes, p: nat, tag: Byte): (r: Result<(Term, nat)>)
    requires tag in {ListTag, SmallTupleTag, LargeTupleTag}
    decreases |buf| - p + 1, 0
    ensures r.Ok? ==> p < r.value.1 <= |buf| && r.value.0.IsSequence()
  {
    if tag == SmallTupleTag then
      var count :- ReadU8(buf, p);
      var items :- DecodeTerms(buf, count.1, count.0);
      Ok((SmallTuple(items.0), items.1))
    else
      var count :- ReadI32(buf, p);
      var items :- DecodeTerms(buf, count.1, SizeT(count.0));
      if tag == LargeTupleTag then Ok((LargeTuple(items.0), items.1))
      else
        // The byte after the elements is consumed only when it is NIL_EXT.
        var tail :- ReadU8(buf, items.1);
        Ok((List(items.0), if tail.0 == NilTag then tail.1 else items.1))
  }

  /** `decode_list`: `n` consecutive terms starting at `off`. Each element
      takes at least one byte, so the cursor advances by at least `n`. */
  function DecodeTerms(buf: Bytes, off: nat, n: nat): (r: Result<(seq<Term>, nat)>)
    requires off <= |buf|
    decreases |buf| - off, 2
    ensures r.Ok? ==> |r.value.0| == n && off + n <= r.value.1 <= |buf|
  {
    if n == 0 then Ok(([], off))
    else
      var first :- DecodeTerm(buf, off);
      var rest :- DecodeTerms(buf, first.1, n - 1);
      Ok(([first.0] + rest.0, rest.1))
  }

  // ---------------------------------------------------------------- lemmas

  /** One step of `decode_intern_`: the tag byte selects the body reader. */
  lemma DecodeTermStep(buf: Bytes, off: nat)
    requires off < |buf|
    ensures var tag := buf[off];
      DecodeTerm(buf, off) ==
        if tag in {AtomTag, StringTag, BinaryTag} then DecodeStringLike(buf, off + 1, tag)
        else if tag in {SmallIntegerTag, IntegerTag, SmallBigTag, NewFloatTag} then DecodeNumber(buf, off + 1, tag)
        else if tag in {ListTag, SmallTupleTag, LargeTupleTag} then DecodeSequence(buf, off + 1, tag)
        else Ok((Bare(tag), off + 1))
  {
  }

  /** A non-empty sequence of terms is its first term followed by the rest. */
  lemma DecodeTermsCons(buf: Bytes, off: nat, items: seq<Term>, p: nat, q: nat)
    requires off <= |buf| && items != []
    requires DecodeTerm(buf, off) == Ok((items[0], p))
    requires DecodeTerms(buf, p, |items[1..]|) == Ok((items[1..], q))
    ensures DecodeTerms(buf, off, |items|) == Ok((items, q))
  {
    assert [items[0]] + items[1..] == items;
  }

  /** ATOM_EXT and STRING_EXT: a 2-byte length, then exactly that window of
      the input as payload; the cursor moves past it. A length reaching past
      the end of the buffer is reported as truncation. */
  lemma AtomOrStringIsWindow(buf: Bytes, off: nat)
    requires off + 3 <= |buf| && buf[off] in {AtomTag, StringTag}
    ensures var len := 256 * (buf[off + 1] as int) + buf[off + 2];
      && (DecodeTerm(buf, off).Ok? <==> off + 3 + len <= |buf|)
      && (DecodeTerm(buf, off).Ok? ==>
            DecodeTerm(buf, off).value
              == (if buf[off] == AtomTag then Atom(buf[off + 3..off + 3 + len])
                  else Str(buf[off + 3..off + 3 + len]), off + 3 + len))
  {
  }

  /** BINARY_EXT: the same with a 4-byte length. */
  lemma BinaryIsWindow(buf: Bytes, off: nat)
    requires off + 5 <= |buf| && buf[off] == BinaryTag
    ensures var len := 0x100_0000 * (buf[off + 1] as int) + 0x1_0000 * (buf[off + 2] as int)
                     + 0x100 * (buf[off + 3] as int) + buf[off + 4];
      && (DecodeTerm(buf, off).Ok? <==> off + 5 + len <= |buf|)
      && (DecodeTerm(buf, off).Ok? ==>
            DecodeTerm(buf, off).value == (Binary(buf[off + 5..off + 5 + len]), off + 5 + len))
  {
  }

  /** A tag the decoder has no body for is a one-byte `Bare` node; in
      particular SMALL_ATOM_EXT is not decoded. */
  lemma UnknownTagConsumesOneByte(buf: Bytes, off: nat)
    requires off < |buf| && !HasBody(buf[off])
    ensures DecodeTerm(buf, off) == Ok((Bare(buf[off]), off + 1))
  {
  }

  /** One LIST_EXT from its parts: the count, the elements, and the byte
      after them, which is consumed only when it is NIL_EXT. */
  lemma ListStep(buf: Bytes, off: nat, n: int, items: seq<Term>, q: nat)
    requires off < |buf| && buf[off] == ListTag
    requires ReadI32(buf, off + 1) == Ok((n, off + 5))
    requires off + 5 <= |buf| && DecodeTerms(buf, off + 5, SizeT(n)) == Ok((items, q))
    requires q < |buf|
    ensures DecodeTerm(buf, off) == Ok((List(items), if buf[q] == NilTag then q + 1 else q))
  {
    DecodeTermStep(buf, off);
  }

  /** LIST_EXT: a 4-byte count N, then N elements in order; the following
      byte is consumed only if it is NIL_EXT, otherwise the cursor is left
      on it. */
  lemma ListShape(buf: Bytes, off: nat)
    requires |buf| < TwoTo32
    requires off + 5 <= |buf| && buf[off] == ListTag
    requires DecodeTerm(buf, off).Ok?
    ensures var count := ReadI32(buf, off + 1).value.0;
      var elems := DecodeTerms(buf, off + 5, SizeT(count));
      && elems.Ok?
      && count >= 0
      && DecodeTerm(buf, off).value.0 == List(elems.value.0)
      && elems.value.1 < |buf|
      && DecodeTerm(buf, off).value.1
           == (if buf[elems.value.1] == NilTag then elems.value.1 + 1 else elems.value.1)
  {
  }
}

=== FILE: wire.dfy ===
/** The primitive readers of `src/bert.cpp`: a byte, big-endian 16- and
    32-bit integers, a byte-reversed double and a raw span. Each reader takes
    the buffer and a cursor and returns the value with the cursor after it.
    The C readers do no bounds checking; here a read past the end is
    `Err(Truncated)`. Next to each reader is the writer it inverts. */
module Wire {
  import opened Results

  type Byte = b: int | 0 <= b < 256
  type Bytes = seq<Byte>

  const TwoTo16: int := 0x1_0000
  const TwoTo31: int := 0x8000_0000
  const TwoTo32: int := 0x1_0000_0000
  const TwoTo63: int := 0x8000_0000_0000_0000
  const TwoTo64: int := 0x1_0000_0000_0000_0000

  /** A `uint64_t`. */
  type U64 = n: int | 0 <= n < TwoTo64

  function Pow256(k: nat): (r: nat)
    ensures r > 0
  {
    if k == 0 then 1 else 256 * Pow256(k - 1)
  }

  /** The number whose base-256 digits are `s`, most significant first. */
  function BigEndian(s: Bytes): nat
  {
    if s == [] then 0 else 256 * BigEndian(s[..|s| - 1]) + s[|s| - 1]
  }

  /** The number whose base-256 digits are `s`, least significant first. */
  function LittleEndian(s: Bytes): nat
  {
    if s == [] then 0 else s[0] + 256 * LittleEndian(s[1..])
  }

  function Reverse(s: Bytes): (r: Bytes)
    ensures |r| == |s|
    ensures forall i :: 0 <= i < |s| ==> r[i] == s[|s| - 1 - i]
  {
    if s == [] then [] else Reverse(s[1..]) + [s[0]]
  }

  /** The `k` low base-256 digits of `n`, most significant first. */
  function ToBigEndian(n: nat, k: nat): (r: Bytes)
    ensures |r| == k
  {
    if k == 0 then [] else ToBigEndian(n / 256, k - 1) + [n % 256]
  }

  /** The `k` low base-256 digits of `n`, least significant first. */
  function ToLittleEndian(n: nat, k: nat): (r: Bytes)
    ensures |r| == k
  {
    if k == 0 then [] else [n % 256] + ToLittleEndian(n / 256, k - 1)
  }

  /** Two's-complement reading of a 32-bit pattern (`ntohl` into an `int`). */
  function ToInt32(u: nat): (i: int)
    requires u < TwoTo32
    ensures -TwoTo31 <= i < TwoTo31
    ensures (i - u) % TwoTo32 == 0
    ensures i < 0 <==> u >= TwoTo31
  {
    if u >= TwoTo31 then u - TwoTo32 else u
  }

  /** Two's-complement reading of a 64-bit pattern (an `unsigned long long`
      sum stored into a `long long`). */
  function ToInt64(u: nat): (i: int)
    requires u < TwoTo64
    ensures -TwoTo63 <= i < TwoTo63
    ensures (i - u) % TwoTo64 == 0
    ensures i < 0 <==> u >= TwoTo63
  {
    if u >= TwoTo63 then u - TwoTo64 else u
  }

  /** An `int` converted to `size_t` (64-bit): negative counts become huge. */
  function SizeT(i: int): (n: nat)
    requires -TwoTo31 <= i < TwoTo31
    ensures i >= 0 ==> n == i
    ensures i < 0 ==> n >= TwoTo64 - TwoTo31
  {
    if i < 0 then i + TwoTo64 else i
  }

  // ---------------------------------------------------------------- readers

  /** `decode_small_int`: one unsigned byte. */
  function ReadU8(buf: Bytes, off: nat): (r: Result<(Byte, nat)>)
    ensures r.Ok? <==> off < |buf|
    ensures r.Ok? ==> r.value.0 == buf[off] && r.value.1 == off + 1
  {
    if off < |buf| then Ok((buf[off], off + 1)) else Err(Truncated)
  }

  /** `decode_uint16`: two bytes in network order. */
  function ReadU16(buf: Bytes, off: nat): (r: Result<(nat, nat)>)
    ensures r.Ok? <==> off + 2 <= |buf|
    ensures r.Ok? ==> r.value.0 == 256 * (buf[off] as int) + buf[off + 1] && r.value.1 == off + 2
    ensures r.Ok? ==> r.value.0 < TwoTo16
  {
    if off + 2 <= |buf| then
      var w := buf[off..off + 2];
      BigEndianSnoc([buf[off]], buf[off + 1]);
      assert w == [buf[off]] + [buf[off + 1]];
      Ok((BigEndian(w), off + 2))
    else Err(Truncated)
  }

  /** `decode_uint32`: four bytes in network order. */
  function ReadU32(buf: Bytes, off: nat): (r: Result<(nat, nat)>)
    ensures r.Ok? <==> off + 4 <= |buf|
    ensures r.Ok? ==> r.value.1 == off + 4
    ensures r.Ok? ==> r.value.0 == 0x100_0000 * (buf[off] as int) + 0x1_0000 * (buf[off + 1] as int)
                                   + 0x100 * (buf[off + 2] as int) + buf[off + 3]
    ensures r.Ok? ==> r.value.0 < TwoTo32
  {
    if off + 4 <= |buf| then
      var w := buf[off..off + 4];
      BigEndianSnoc([], buf[off]);
      assert [] + [buf[off]] == [buf[off]];
      BigEndianSnoc([buf[off]], buf[off + 1]);
      assert [buf[off]] + [buf[off + 1]] == [buf[off], buf[off + 1]];
      assert [buf[off], buf[off + 1]] + [buf[off + 2]] == [buf[off], buf[off + 1], buf[off + 2]];
      BigEndianSnoc([buf[off], buf[off + 1]], buf[off + 2]);
      BigEndianSnoc([buf[off], buf[off + 1], buf[off + 2]], buf[off + 3]);
      assert w == [buf[off], buf[off + 1], buf[off + 2]] + [buf[off + 3]];
      Ok((BigEndian(w), off + 4))
    else Err(Truncated)
  }

  /** `decode_int`: four bytes in network order, read as a signed `int`. */
  function ReadI32(buf: Bytes, off: nat): (r: Result<(int, nat)>)
    ensures r.Ok? <==> off + 4 <= |buf|
    ensures r.Ok? ==> r.value.1 == off + 4
    ensures r.Ok? ==> -TwoTo31 <= r.value.0 < TwoTo31
    ensures r.Ok? ==> (r.value.0 - ReadU32(buf, off).value.0) % TwoTo32 == 0
    ensures r.Ok? ==> (r.value.0 < 0 <==> buf[off] >= 128)
  {
    var u :- ReadU32(buf, off);
    Ok((ToInt32(u.0), u.1))
  }

  /** `decode_new_float`: the 8 bytes are copied in reverse order into a
      local array whose memory is then read as a double. On the
      little-endian hosts the program targets, the 64-bit pattern is the
      little-endian value of that reversed array. */
  function ReadFloatBits(buf: Bytes, off: nat): (r: Result<(nat, nat)>)
    ensures r.Ok? <==> off + 8 <= |buf|
    ensures r.Ok? ==> r.value.0 == BigEndian(buf[off..off + 8]) && r.value.1 == off + 8
    ensures r.Ok? ==> r.value.0 < TwoTo64
  {
    if off + 8 <= |buf| then
      var image := Reverse(buf[off..off + 8]);
      LittleEndianOfReverse(buf[off..off + 8]);
      BigEndianBound(buf[off..off + 8]);
      PowersTable();
      Ok((LittleEndian(image), off + 8))
    else Err(Truncated)
  }

  /** `decode_string`: a span of `len` bytes at the cursor, not copied. */
  function ReadSpan(buf: Bytes, off: nat, len: nat): (r: Result<(Bytes, nat)>)
    ensures r.Ok? <==> off + len <= |buf|
    ensures r.Ok? ==> r.value.0 == buf[off..off + len] && r.value.1 == off + len
  {
    if off + len <= |buf| then Ok((buf[off..off + len], off + len)) else Err(Truncated)
  }

  /** The `powers` table of `src/bert.cpp`: 256^i for i < 8. */
  const Powers: seq<nat> := [
    1, 0x100, 0x1_0000, 0x100_0000, 0x1_0000_0000, 0x100_0000_0000,
    0x1_0000_0000_0000, 0x100_0000_0000_0000]

  /** The loop of `decode_small_big`: Σ mag[i] * powers[i]. */
  function PowerSum(mag: Bytes): nat
    requires |mag| <= |Powers|
  {
    if mag == [] then 0 else PowerSum(mag[..|mag| - 1]) + mag[|mag| - 1] * Powers[|mag| - 1]
  }

  /** `decode_small_big`: a length byte L, a sign byte, then L magnitude
      bytes, least significant first. The sign byte is read and dropped. */
  function ReadSmallBig(buf: Bytes, off: nat): (r: Result<(int, nat)>)
    ensures r.Ok? <==> off + 2 <= |buf| && buf[off] <= 8 && off + 2 + buf[off] <= |buf|
    ensures r.Ok? ==> r.value.1 == off + 2 + buf[off]
    ensures r.Ok? ==> (LittleEndian(buf[off + 2..off + 2 + buf[off]]) < TwoTo64
                    && r.value.0 == ToInt64(LittleEndian(buf[off + 2..off + 2 + buf[off]])))
    ensures off + 2 <= |buf| && buf[off] > 8 ==> r == Err(BigTooWide)
  {
    var len :- ReadU8(buf, off);
    var sign :- ReadU8(buf, len.1);
    if len.0 > |Powers| then Err(BigTooWide)
    else
      var mag :- ReadSpan(buf, sign.1, len.0);
      PowerSumIsLittleEndian(mag.0);
      LittleEndianBound(mag.0);
      PowersTable();
      PowMonotone(|mag.0|, 8);
      Ok((ToInt64(PowerSum(mag.0)), mag.1))
  }

  // ---------------------------------------------------------------- lemmas

  /** Entry i of `powers` is 256^i, and the table stops just below 2^64. */
  lemma PowersTable()
    ensures forall i :: 0 <= i < |Powers| ==> Powers[i] == Pow256(i)
    ensures Pow256(8) == TwoTo64
  {
    assert Pow256(0) == 1;
    assert Pow256(1) == 0x100;
    assert Pow256(2) == 0x1_0000;
    assert Pow256(3) == 0x100_0000;
    assert Pow256(4) == 0x1_0000_0000;
    assert Pow256(5) == 0x100_0000_0000;
    assert Pow256(6) == 0x1_0000_0000_0000;
    assert Pow256(7) == 0x100_0000_0000_0000;
  }

  lemma {:induction false} BigEndianBound(s: Bytes)
    ensures BigEndian(s) < Pow256(|s|)
  {
    if s != [] {
      BigEndianBound(s[..|s| - 1]);
    }
  }

  lemma {:induction false} LittleEndianBound(s: Bytes)
    ensures LittleEndian(s) < Pow256(|s|)
  {
    if s != [] {
      LittleEndianBound(s[1..]);
    }
  }

  lemma BigEndianSnoc(s: Bytes, b: Byte)
    ensures BigEndian(s + [b]) == 256 * BigEndian(s) + b
  {
    assert (s + [b])[..|s|] == s;
  }

  lemma {:induction false} LittleEndianSnoc(s: Bytes, b: Byte)
    ensures LittleEndian(s + [b]) == LittleEndian(s) + b * Pow256(|s|)
  {
    if s == [] {
    } else {
      assert (s + [b])[1..] == s[1..] + [b];
      LittleEndianSnoc(s[1..], b);
    }
  }

  /** Reversing the 8-byte window turns the big-endian value into the
      little-endian one: the double's bits are the wire bytes read in
      network order. */
  lemma {:induction false} LittleEndianOfReverse(s: Bytes)
    ensures LittleEndian(Reverse(s)) == BigEndian(s)
  {
    if s != [] {
      var init := s[..|s| - 1];
      assert Reverse(s) == [s[|s| - 1]] + Reverse(init);
      assert (Reverse(s))[1..] == Reverse(init);
      LittleEndianOfReverse(init);
    }
  }

  /** The `powers` loop computes the little-endian value of the magnitude. */
  lemma {:induction false} PowerSumIsLittleEndian(mag: Bytes)
    requires |mag| <= |Powers|
    ensures PowerSum(mag) == LittleEndian(mag)
  {
    if mag != [] {
      var init := mag[..|mag| - 1];
      PowerSumIsLittleEndian(init);
      assert mag == init + [mag[|mag| - 1]];
      LittleEndianSnoc(init, mag[|mag| - 1]);
      PowersTable();
    }
  }

  lemma {:induction false} BigEndianOfToBigEndian(n: nat, k: nat)
    requires n < Pow256(k)
    ensures BigEndian(ToBigEndian(n, k)) == n
  {
    if k > 0 {
      var s := ToBigEndian(n, k);
      assert s[..|s| - 1] == ToBigEndian(n / 256, k - 1);
      BigEndianOfToBigEndian(n / 256, k - 1);
    }
  }

  lemma {:induction false} LittleEndianOfToLittleEndian(n: nat, k: nat)
    requires n < Pow256(k)
    ensures LittleEndian(ToLittleEndian(n, k)) == n
  {
    if k > 0 {
      var s := ToLittleEndian(n, k);
      assert s[1..] == ToLittleEndian(n / 256, k - 1);
      LittleEndianOfToLittleEndian(n / 256, k - 1);
    }
  }

  /** A byte written between any two byte strings reads back as itself. */
  lemma ReadU8OfWrite(pre: Bytes, b: Byte, post: Bytes)
    ensures ReadU8(pre + [b] + post, |pre|) == Ok((b, |pre| + 1))
  {
    assert (pre + [b] + post)[|pre|] == b;
  }

  /** A span written between any two byte strings reads back as exactly
      that span, whatever surrounds it. */
  lemma ReadSpanOfWrite(pre: Bytes, s: Bytes, post: Bytes)
    ensures ReadSpan(pre + s + post, |pre|, |s|) == Ok((s, |pre| + |s|))
  {
    assert (pre + s + post)[|pre|..|pre| + |s|] == s;
  }

  /** Reading back a big-endian writing of `n` gives `n` and moves the
      cursor past it. */
  lemma ReadU16OfWrite(buf: Bytes, off: nat, n: nat)
    requires n < TwoTo16
    requires off + 2 <= |buf| && buf[off..off + 2] == ToBigEndian(n, 2)
    ensures ReadU16(buf, off) == Ok((n, off + 2))
  {
    BigEndianOfToBigEndian(n, 2);
  }

  lemma ReadU32OfWrite(buf: Bytes, off: nat, n: nat)
    requires n < TwoTo32
    requires off + 4 <= |buf| && buf[off..off + 4] == ToBigEndian(n, 4)
    ensures ReadU32(buf, off) == Ok((n, off + 4))
  {
    BigEndianOfToBigEndian(n, 4);
  }

  /** The 32-bit two's-complement pattern of `i`. */
  function Int32Pattern(i: int): (u: nat)
    requires -TwoTo31 <= i < TwoTo31
    ensures u < TwoTo32 && ToInt32(u) == i
  {
    if i < 0 then i + TwoTo32 else i
  }

  lemma ReadI32OfWrite(buf: Bytes, off: nat, i: int)
    requires -TwoTo31 <= i < TwoTo31
    requires off + 4 <= |buf| && buf[off..off + 4] == ToBigEndian(Int32Pattern(i), 4)
    ensures ReadI32(buf, off) == Ok((i, off + 4))
  {
    ReadU32OfWrite(buf, off, Int32Pattern(i));
  }

  lemma ReadFloatBitsOfWrite(buf: Bytes, off: nat, bits: nat)
    requires bits < TwoTo64
    requires off + 8 <= |buf| && buf[off..off + 8] == ToBigEndian(bits, 8)
    ensures ReadFloatBits(buf, off) == Ok((bits, off + 8))
  {
    PowersTable();
    BigEndianOfToBigEndian(bits, 8);
  }

  /** The 64-bit two's-complement pattern of `n`. */
  function Int64Pattern(n: int): (u: nat)
    requires -TwoTo63 <= n < TwoTo63
    ensures u < TwoTo64 && ToInt64(u) == n
  {
    if n < 0 then n + TwoTo64 else n
  }

  /** A SMALL_BIG_EXT body of 8 magnitude bytes holding the 64-bit pattern
      of `n` reads back as `n`, whatever the sign byte. */
  lemma ReadSmallBigOfWrite(buf: Bytes, off: nat, n: int)
    requires -TwoTo63 <= n < TwoTo63
    requires off + 10 <= |buf| && buf[off] == 8
    requires buf[off + 2..off + 10] == ToLittleEndian(Int64Pattern(n), 8)
    ensures ReadSmallBig(buf, off) == Ok((n, off + 10))
  {
    PowersTable();
    LittleEndianOfToLittleEndian(Int64Pattern(n), 8);
  }

  /** SMALL_BIG_EXT: the sign byte has no influence on the value or the
      cursor. */
  lemma SmallBigIgnoresSign(buf: Bytes, off: nat, s: Byte)
    requires off + 2 <= |buf|
    ensures ReadSmallBig(buf[off + 1 := s], off) == ReadSmallBig(buf, off)
  {
    var buf' := buf[off + 1 := s];
    if off + 2 + buf[off] <= |buf| {
      assert buf'[off + 2..off + 2 + buf[off]] == buf[off + 2..off + 2 + buf[off]];
    }
  }

  /** SMALL_BIG_EXT: the value is the plain magnitude unless all 8 bytes are
      used and the top one has its high bit set, where the `long long`
      wraps to a negative number. */
  lemma SmallBigValue(buf: Bytes, off: nat)
    requires ReadSmallBig(buf, off).Ok?
    ensures var mag := buf[off + 2..off + 2 + buf[off]];
      (buf[off] < 8 || buf[off + 9] < 128) <==> ReadSmallBig(buf, off).value.0 == LittleEndian(mag)
  {
    var mag := buf[off + 2..off + 2 + buf[off]];
    LittleEndianBound(mag);
    if buf[off] == 8 {
      assert mag == mag[..7] + [mag[7]];
      LittleEndianSnoc(mag[..7], mag[7]);
      LittleEndianBound(mag[..7]);
      PowersTable();
    } else {
      assert Pow256(|mag|) <= Pow256(7) by {
        PowMonotone(|mag|, 7);
      }
      assert Pow256(7) == 0x100_0000_0000_0000;
    }
  }

  lemma {:induction false} PowMonotone(a: nat, b: nat)
    requires a <= b
    ensures Pow256(a) <= Pow256(b)
  {
    if a < b {
      PowMonotone(a, b - 1);
    }
  }

  /** The double pi, stored as 40 09 21 FB 54 44 2D 18 on the wire, has the
      IEEE-754 bit pattern 0x400921FB54442D18 once the bytes are reversed. */
  lemma PiBits()
    ensures ReadFloatBits([0x40, 0x09, 0x21, 0xFB, 0x54, 0x44, 0x2D, 0x18], 0)
         == Ok((0x400921FB54442D18, 8))
  {
    var w: Bytes := [0x40, 0x09, 0x21, 0xFB, 0x54, 0x44, 0x2D, 0x18];
    assert w[0..8] == w;
    BigEndianSnoc([], 0x40);
    assert [] + [0x40] == [0x40];
    BigEndianSnoc([0x40], 0x09);
    assert [0x40] + [0x09] == [0x40, 0x09];
    BigEndianSnoc([0x40, 0x09], 0x21);
    assert [0x40, 0x09] + [0x21] == [0x40, 0x09, 0x21];
    BigEndianSnoc([0x40, 0x09, 0x21], 0xFB);
    assert [0x40, 0x09, 0x21] + [0xFB] == [0x40, 0x09, 0x21, 0xFB];
    BigEndianSnoc([0x40, 0x09, 0x21, 0xFB], 0x54);
    assert [0x40, 0x09, 0x21, 0xFB] + [0x54] == [0x40, 0x09, 0x21, 0xFB, 0x54];
    BigEndianSnoc([0x40, 0x09, 0x21, 0xFB, 0x54], 0x44);
    assert [0x40, 0x09, 0x21, 0xFB, 0x54] + [0x44] == [0x40, 0x09, 0x21, 0xFB, 0x54, 0x44];
    BigEndianSnoc([0x40, 0x09, 0x21, 0xFB, 0x54, 0x44], 0x2D);
    assert [0x40, 0x09, 0x21, 0xFB, 0x54, 0x44] + [0x2D] == [0x40, 0x09, 0x21, 0xFB, 0x54, 0x44, 0x2D];
    BigEndianSnoc([0x40, 0x09, 0x21, 0xFB, 0x54, 0x44, 0x2D], 0x18);
    assert [0x40, 0x09, 0x21, 0xFB, 0x54, 0x44, 0x2D] + [0x18] == w;
    assert BigEndian(w) == 0x400921FB54442D18;
  }

  /** SMALL_BIG_EXT with length 2, sign 0 and magnitude [1, 1] is 257. */
  lemma SmallBig257()
    ensures ReadSmallBig([2, 0, 1, 1], 0) == Ok((257, 4))
  {
    var buf: Bytes := [2, 0, 1, 1];
    assert buf[2..4] == [1, 1];
    assert [1, 1][1..] == [1];
  }
}
